=== FILE: README.md ===
# Storefront client logic in Dafny

This project models the client-side logic of a React storefront: the
screens a customer walks through from the catalogue to a placed and paid
order, and the admin screens for products and orders. Each screen is one
Dafny module. A screen's local `useReducer` becomes a total function from
a state record and a tagged `Actions.Action` to the next state. Its event
handlers become pure functions of the server's answer, given as a `Result`.
They return the reducer state they leave behind and a log of outside
effects (`Domain.Effect`): store dispatches, storage writes, navigation,
alerts and toasts.

Modules:

- `Domain`: products, cart lines, addresses, users and orders.
  - JavaScript truthiness of optional text and of text-or-number values.
  - Query strings as ordered key/value lists, read with `Get` (the first
    match).
  - The effect log.
- `Actions`: the action union shared by all reducers, `Run` (dispatching a
  sequence of actions), the loading/error/content panel and page-link
  highlighting.
- `Pricing`: the place-order summary in integer cents. The items subtotal
  is the sum of price × quantity. Shipping is free strictly above 100.00,
  otherwise 10.00. Tax is 15 % rounded half up to the cent, and the total
  is their plain sum.
- `ProductScreen`, `CartScreen`: adding to and updating the cart against a
  live stock count, the quantity buttons, and the displayed count and
  subtotal.
- `SigninScreen`, `SignupScreen`, `ShippingAddressScreen`,
  `PaymentMethodScreen`, `PlaceOrderScreen`, `OrderScreen`: the checkout
  screens and the order page.
- `CheckoutGate`: composes the checkout screens' mount checks into one
  function. It proves that a screen renders exactly when its precondition
  holds and follows chains of redirects. It also walks the checkout under
  an explicitly labelled assumption about the store's save actions.
- `SearchScreen`: URL parameter defaults, `getFilterUrl`, its reducer and
  fetch, and the clear-filters and page buttons.
- `ProductListScreen`, `OrderListScreen`, `OrderCells`,
  `OrderHistoryScreen`, `ProductEditScreen`, `ProfileScreen`, `HomeScreen`:
  the remaining reducers, the delete → success → reset → refetch cycle of
  the two admin lists, and the order-table cells.

Two handlers send a request without first dispatching its request action,
so no loading indicator shows while that request is outstanding. The model
follows the code:

- The search screen's fetch never dispatches `FETCH_REQUEST`, so only the
  first load shows the spinner (`SearchScreen.SpinnerOnlyOnFirstLoad`).
- The product list's delete handler never dispatches `DELETE_REQUEST`, so
  its delete spinner never shows (`ProductListScreen.DeleteSpinnerNeverShows`).

The order page redirects an anonymous visitor to `/login`, while every
other screen uses `/signin`. The router is not part of this model, so
this is recorded as written.

## Model

| member | source | states |
|---|---|---|
| Pricing.ItemsPrice | frontend/src/screens/PlaceOrderScreen.js:54-56 | the left fold over the cart lines computes the reference subtotal Σ quantity × price |
| Pricing.SubtotalSwap | frontend/src/screens/PlaceOrderScreen.js:54-56 | the subtotal does not depend on the order of the cart lines |
| Pricing.RoundHalfUp | frontend/src/screens/PlaceOrderScreen.js:52 | the result lies within half a unit of num/den, with ties going up |
| Pricing.RoundHalfUpUnique | frontend/src/screens/PlaceOrderScreen.js:52 | exactly one integer satisfies that rounding bound |
| Pricing.ShippingPrice | frontend/src/screens/PlaceOrderScreen.js:58 | shipping is zero exactly when the subtotal is strictly above 100.00, else the flat 10.00 |
| Pricing.TaxPrice | frontend/src/screens/PlaceOrderScreen.js:60 | tax is 15 % of the subtotal to within half a cent, ties up, and is never negative for a non-negative subtotal |
| Pricing.Summary | frontend/src/screens/PlaceOrderScreen.js:54-62 | the summary's subtotal is the cart's; shipping is 0 strictly above 100.00 and 10.00 otherwise; tax is 15 % of the subtotal rounded half up to the cent; the total is exactly the sum of the three parts |
| Pricing.ExampleOneLine | frontend/src/screens/PlaceOrderScreen.js:54-62 | 150.00 of goods ships free, with 22.50 tax and 172.50 in all |
| Pricing.ExampleTwoLines | frontend/src/screens/PlaceOrderScreen.js:54-62 | 70.00 of goods pays 10.00 shipping and 10.50 tax, 90.50 in all |
| Pricing.ThresholdIsStrict | frontend/src/screens/PlaceOrderScreen.js:58 | exactly 100.00 still pays shipping and 100.01 does not |
| Pricing.TotalMonotoneOnEachSide | frontend/src/screens/PlaceOrderScreen.js:58-62 | on each side of the threshold a larger subtotal never gives a smaller total |
| Pricing.TotalDropsAcrossThreshold | frontend/src/screens/PlaceOrderScreen.js:58-62 | crossing the threshold lowers the total |
| PlaceOrderScreen.Reduce | frontend/src/screens/PlaceOrderScreen.js:17-32 | CREATE_REQUEST sets loading, CREATE_SUCCESS and CREATE_FAIL clear it, and every other action changes nothing |
| PlaceOrderScreen.OnMount | frontend/src/screens/PlaceOrderScreen.js:105-110 | the screen renders exactly when a payment method is saved, else it goes to /payment, whatever the cart holds |
| PlaceOrderScreen.ButtonDisabled | frontend/src/screens/PlaceOrderScreen.js:207 | the place-order button is disabled exactly for an empty cart |
| PlaceOrderScreen.Request | frontend/src/screens/PlaceOrderScreen.js:71-81 | the posted order carries the cart's lines, address and method; its prices are the cart's subtotal, shipping of 0 or 10.00 by the strict threshold, 15 % tax rounded half up, and their sum |
| PlaceOrderScreen.PlaceOrder | frontend/src/screens/PlaceOrderScreen.js:65-102 | success clears the cart, removes 'cartItems' and opens /order/<id>; failure only toasts; loading ends cleared |
| PlaceOrderScreen.CartClearedOnlyOnSuccess | frontend/src/screens/PlaceOrderScreen.js:88-100 | the cart is cleared once, as the first effect, exactly when the order was created |
| OrderScreen.Reduce | frontend/src/screens/OrderScreen.js:19-62 | field by field: only a fetch success replaces the order; pay and deliver payloads are dropped; the one-shot flags are set by their successes and cleared only by their resets; unknown actions change nothing |
| OrderScreen.EffectPlan | frontend/src/screens/OrderScreen.js:173-214 | anonymous viewers go to login; the PayPal script loads exactly when the loaded order has the route id and no success flag is set; otherwise a refetch resets exactly the flags that are set |
| OrderScreen.OnMount | frontend/src/screens/OrderScreen.js:175-177 | the order page renders exactly for a signed-in viewer, else it goes to /login |
| OrderScreen.RefetchConsumesFlags | frontend/src/screens/OrderScreen.js:179-194 | after a refetching pass the screen is loading, both success flags are cleared and the shown order is kept |
| OrderScreen.Pay | frontend/src/screens/OrderScreen.js:124-148 | paying clears loadingPay, sets successPay on success, touches nothing else, and toasts the outcome |
| OrderScreen.Deliver | frontend/src/screens/OrderScreen.js:226-247 | delivering clears loadingDeliver, sets successDeliver on success, touches nothing else, and toasts the outcome |
| OrderScreen.PaymentTriggersOneRefetch | frontend/src/screens/OrderScreen.js:179-214 | a payment causes one refetch; once the refreshed order arrives, the next pass loads PayPal again |
| OrderScreen.PayControlsShown | frontend/src/screens/OrderScreen.js:354 | pay controls show exactly for an unpaid order |
| OrderScreen.DeliverButtonShown | frontend/src/screens/OrderScreen.js:370 | the deliver button shows exactly to an admin for a paid, undelivered order |
| OrderScreen.PayAndDeliverExclusive | frontend/src/screens/OrderScreen.js:354-370 | pay controls and the deliver button never show together |
| ProductScreen.Reduce | frontend/src/screens/ProductScreen.js:17-32 | FETCH_REQUEST sets loading, FETCH_SUCCESS stores the product, FETCH_FAIL stores the error, and others change nothing |
| ProductScreen.FindIndex | frontend/src/screens/ProductScreen.js:73 | finds the first cart line with the product's id, or reports that none exists |
| ProductScreen.RequestedQuantity | frontend/src/screens/ProductScreen.js:73-74 | the request is the first matching line's quantity plus one, or 1 for a new product |
| ProductScreen.AddToCart | frontend/src/screens/ProductScreen.js:71-87 | a failed stock lookup is uncaught, so nothing happens; otherwise the handler dispatches iff the live stock covers the request, then adds the product with that quantity and opens /cart, and else only alerts |
| ProductScreen.AddNeverExceedsStock | frontend/src/screens/ProductScreen.js:75-85 | any dispatched add carries the product and a quantity within the live stock |
| ProductScreen.AddButtonShown | frontend/src/screens/ProductScreen.js:147 | the add button is offered exactly for a product in stock |
| ProductScreen.OfferedButtonAddsNewProduct | frontend/src/screens/ProductScreen.js:71-87 | with unchanged stock, the offered button adds one unit of a new product and opens the cart |
| ProductScreen.ExistingLineIncrements | frontend/src/screens/ProductScreen.js:73-85 | for a product already in the cart, the add carries the first matching line's quantity plus one |
| CartScreen.UpdateCart | frontend/src/screens/CartScreen.js:24-37 | a failed stock lookup is uncaught, so nothing happens; otherwise an update dispatches iff the live stock covers it, with exactly the requested quantity, and else only alerts |
| CartScreen.DecrementEnabled | frontend/src/screens/CartScreen.js:82 | the minus button is disabled exactly at quantity 1 |
| CartScreen.IncrementEnabled | frontend/src/screens/CartScreen.js:92 | the plus button is disabled exactly when the quantity equals the line's stock count |
| CartScreen.Decrement | frontend/src/screens/CartScreen.js:77-79 | the minus button asks for one less: a failed lookup does nothing, and it dispatches iff the live stock covers the lower quantity, with exactly that quantity |
| CartScreen.Increment | frontend/src/screens/CartScreen.js:88-90 | the plus button asks for one more: a failed lookup does nothing, it dispatches iff the live stock covers the higher quantity, and otherwise it only alerts |
| CartScreen.EnabledButtonsKeepBounds | frontend/src/screens/CartScreen.js:77-92 | with unchanged stock, an enabled button is accepted and keeps the line within 1..countInStock |
| CartScreen.StaleStockRejectsIncrement | frontend/src/screens/CartScreen.js:26-31 | an enabled plus is rejected when the live stock has dropped |
| CartScreen.Remove | frontend/src/screens/CartScreen.js:39-42 | removal dispatches CART_REMOVE_ITEM with the line and nothing else |
| CartScreen.ItemCount | frontend/src/screens/CartScreen.js:118 | the displayed count is 0 for an empty cart and, with non-negative quantities, never negative and at least the last line's quantity |
| CartScreen.DisplayedSubtotal | frontend/src/screens/CartScreen.js:120 | the displayed subtotal is 0 for an empty cart and price × quantity for a single line; `DisplayedSubtotalIsItemsPrice` relates it to every cart |
| CartScreen.DisplayedSubtotalIsItemsPrice | frontend/src/screens/CartScreen.js:118-120 | the cart's displayed subtotal equals the subtotal the order is priced from |
| CartScreen.ItemCountAtLeastLines | frontend/src/screens/CartScreen.js:118 | with positive quantities, the item count is at least the number of lines |
| CartScreen.CheckoutEnabled | frontend/src/screens/CartScreen.js:129 | checkout is enabled exactly for a non-empty cart |
| CartScreen.Checkout | frontend/src/screens/CartScreen.js:45-48 | checkout navigates to /signin?redirect=/shipping and dispatches nothing |
| SigninScreen.RedirectTarget | frontend/src/screens/SigninScreen.js:17-19 | the target is the redirect parameter when it is non-empty, else '/', so it is never empty |
| SigninScreen.OnMount | frontend/src/screens/SigninScreen.js:52-57 | a signed-in user is sent to the redirect target; others stay |
| SigninScreen.TargetSurvivesRelink | frontend/src/screens/SigninScreen.js:17-19 | resolving an already resolved target gives it back, so a link that passes the target on preserves it |
| SigninScreen.SignupLink | frontend/src/screens/SigninScreen.js:87 | the link opens /signup, and the redirect value it carries resolves on the sign-up screen to this screen's target |
| SigninScreen.SignedIn | frontend/src/screens/SigninScreen.js:40-44 | the user is stored, then persisted under 'userInfo', then the screen navigates to `redirect \|\| '/'` |
| SigninScreen.Submit | frontend/src/screens/SigninScreen.js:30-49 | success stores, persists and goes to the redirect target; failure only toasts |
| SignupScreen.RequestBody | frontend/src/screens/SignupScreen.js:37-48 | no request is made iff a required field is empty or the passwords differ; otherwise the body is name, email and password |
| SignupScreen.OnMount | frontend/src/screens/SignupScreen.js:61-66 | a signed-in user is sent to the redirect target |
| SignupScreen.SigninLink | frontend/src/screens/SignupScreen.js:109 | the link opens /signin, and the redirect value it carries resolves on the sign-in screen to this screen's target |
| SignupScreen.LinksRoundTrip | frontend/src/screens/SignupScreen.js:18-20 | going to sign-in and back to sign-up through the two links keeps the original target, and a signed-in visitor is redirected to the same place from every screen on the way |
| SignupScreen.Submit | frontend/src/screens/SignupScreen.js:33-58 | an empty required field (SignupScreen.js:77-101) means no submit at all; mismatched passwords only toast 'Passwords do not match'; the handler only notifies iff no request is made or the server failed, and dispatches iff a request is made and succeeds |
| SignupScreen.MatchingPasswordsActLikeSignin | frontend/src/screens/SignupScreen.js:49-57 | with the form filled in and matching passwords, sign-up ends exactly like sign-in for the same answer |
| SignupScreen.MismatchIgnoresResponse | frontend/src/screens/SignupScreen.js:37-40 | with mismatched passwords the server's answer is irrelevant and nothing is dispatched |
| ShippingAddressScreen.OnMount | frontend/src/screens/ShippingAddressScreen.js:27-32 | the screen renders exactly for a signed-in user, else it goes to /signin?redirect=/shipping |
| ShippingAddressScreen.InitialForm | frontend/src/screens/ShippingAddressScreen.js:20-25 | each field starts from the saved field, or '' when that is absent or empty |
| ShippingAddressScreen.Submit | frontend/src/screens/ShippingAddressScreen.js:36-62 | with every required field filled, it stores the five fields, persists the same value and goes to /payment; otherwise nothing happens |
| ShippingAddressScreen.StoredEqualsPersisted | frontend/src/screens/ShippingAddressScreen.js:40-59 | the dispatched address and the persisted address are the same value |
| ShippingAddressScreen.ReopenShowsSavedAddress | frontend/src/screens/ShippingAddressScreen.js:20-34 | reopening after a save shows exactly the address submitted |
| ShippingAddressScreen.FirstVisitIsBlank | frontend/src/screens/ShippingAddressScreen.js:20-34 | on a first visit every field is empty, so the form cannot be submitted as is |
| PaymentMethodScreen.OnMount | frontend/src/screens/PaymentMethodScreen.js:26-32 | the screen renders exactly when the saved address field is non-empty, else it goes to /shipping |
| PaymentMethodScreen.InitialSelection | frontend/src/screens/PaymentMethodScreen.js:21-23 | the starting selection is the saved method, else 'PayPal', so it is never empty |
| PaymentMethodScreen.Select | frontend/src/screens/PaymentMethodScreen.js:55-73 | choosing a radio selects 'PayPal' or 'Stripe', and that radio shows as checked |
| PaymentMethodScreen.Checked | frontend/src/screens/PaymentMethodScreen.js:60-70 | a radio shows as checked only when the selection is one of the two offered names |
| PaymentMethodScreen.AtMostOneChecked | frontend/src/screens/PaymentMethodScreen.js:60-70 | at most one radio is checked, and none when the selection is neither PayPal nor Stripe |
| PaymentMethodScreen.Submit | frontend/src/screens/PaymentMethodScreen.js:34-43 | the chosen name is stored and persisted under 'paymentMethod', then the screen goes to /placeorder |
| CheckoutGate.StaysIffReady | frontend/src/screens/PlaceOrderScreen.js:105-110 | every gated screen renders exactly when its own precondition holds |
| CheckoutGate.GateRedirectsOneStepBack | frontend/src/screens/PaymentMethodScreen.js:26-32 | a gated checkout screen only ever redirects to the step just before it |
| CheckoutGate.PlaceOrderLanding | frontend/src/screens/PlaceOrderScreen.js:105-110 | opening place-order lands, within three redirects, on the first step whose precondition is missing, and that screen renders |
| CheckoutGate.PlaceOrderChecksOnlyPayment | frontend/src/screens/PlaceOrderScreen.js:107 | place-order checks only the payment method, not the session or the address |
| CheckoutGate.CheckoutWalk | frontend/src/screens/PaymentMethodScreen.js:34-43 | under the assumed save semantics, sign-in, address and payment submits each reach a next screen that renders |
| CheckoutGate.DefaultSelectionPassesGate | frontend/src/screens/PaymentMethodScreen.js:21-42 | submitting the default selection always satisfies the place-order gate |
| SearchScreen.ParseParams | frontend/src/screens/SearchScreen.js:90-96 | absent parameters default to 'all' ×4, 'newest' and page 1 |
| SearchScreen.ParsedAreTruthy | frontend/src/screens/SearchScreen.js:90-96 | every filter value read from the URL is truthy |
| SearchScreen.Pick | frontend/src/screens/SearchScreen.js:168-173 | a field takes the filter's value when that is truthy, else keeps the current one |
| SearchScreen.GetFilterUrl | frontend/src/screens/SearchScreen.js:166-193 | the link's pathname is /search, with keys category, query, price, rating, order, page in that order |
| SearchScreen.FilterUrlRoundTrip | frontend/src/screens/SearchScreen.js:166-193 | reading a filter link's query back gives exactly the filters it selected |
| SearchScreen.EmptyFilterIsIdentity | frontend/src/screens/SearchScreen.js:168-173 | the empty filter reproduces the current parameters |
| SearchScreen.OverrideChangesOnlyThatField | frontend/src/screens/SearchScreen.js:168-183 | overriding one field changes only that entry; a falsy override changes nothing |
| SearchScreen.FetchQuery | frontend/src/screens/SearchScreen.js:111-122 | the request query has six entries, no key twice |
| SearchScreen.FetchQueryMatchesFilterUrl | frontend/src/screens/SearchScreen.js:109-126 | the search request asks for the same key/value pairs as the current filter link |
| SearchScreen.ClearFiltersShown | frontend/src/screens/SearchScreen.js:287-297 | the clear button shows iff query, category, rating or price is not 'all' |
| SearchScreen.ClearingResetsFilters | frontend/src/screens/SearchScreen.js:293 | the cleared URL reads back as all defaults, where the button is hidden |
| SearchScreen.Reduce | frontend/src/screens/SearchScreen.js:18-41 | FETCH_SUCCESS sets the four result fields and clears loading without touching error; FETCH_FAIL stores the error; others change nothing |
| SearchScreen.FetchAsWritten | frontend/src/screens/SearchScreen.js:107-140 | the fetch dispatches no FETCH_REQUEST and always leaves loading cleared; a failure stores `getError` of the previous error |
| SearchScreen.Fetch | frontend/src/screens/SearchScreen.js:107-140 | corrected: a success applies FETCH_SUCCESS, a failure stores the caught error, and loading always ends cleared |
| SearchScreen.FetchFailureIgnoresServerError | frontend/src/screens/SearchScreen.js:131-134 | as written, a failed search stores the same thing whatever the server answered; corrected, it stores the server's error; both agree on success |
| SearchScreen.SpinnerOnlyOnFirstLoad | frontend/src/screens/SearchScreen.js:107-140 | after the first fetch settles, later refetches never show the spinner, as written and corrected |
| SearchScreen.ShowsLastSuccess | frontend/src/screens/SearchScreen.js:23-32 | after any run of answers the products held in state are those of the last successful answer, or the earlier ones if none succeeded; as written and corrected hold the same products |
| SearchScreen.FetchedProductsAgree | frontend/src/screens/SearchScreen.js:126-134 | the as-written and corrected fetches, run from states holding the same products, end holding the same products |
| SearchScreen.ErrorOutlivesSuccesses | frontend/src/screens/SearchScreen.js:273-277 | successes never clear a stored error, so once an error is stored the screen keeps the error panel through later successes, as written and corrected |
| Actions.PageLinks | frontend/src/screens/SearchScreen.js:328-335 | the buttons run 1..pages; a button is highlighted iff it equals Number(page); at most one is, and one is iff the page is in range |
| Actions.RunAppend | frontend/src/screens/OrderScreen.js:179-194 | dispatching two action sequences in turn is dispatching their concatenation |
| Actions.PanelOf | frontend/src/screens/ProductListScreen.js:205-209 | content shows exactly when nothing is loading and there is no error; an error panel shows that error |
| ProductListScreen.Reduce | frontend/src/screens/ProductListScreen.js:14-64 | field by field: create and delete flags per action; DELETE_FAIL and DELETE_RESET both clear both delete flags; unknown actions change nothing |
| ProductListScreen.EffectActions | frontend/src/screens/ProductListScreen.js:123-128 | a set successDelete is acknowledged with DELETE_RESET and no fetch; otherwise the list is fetched |
| ProductListScreen.CreateAsWritten | frontend/src/screens/ProductListScreen.js:152-158 | a failed create toasts the page's own error, not the one caught |
| ProductListScreen.Create | frontend/src/screens/ProductListScreen.js:132-161 | without confirmation nothing happens; success toasts and opens the new product's edit page; failure toasts the caught error; loadingCreate ends cleared |
| ProductListScreen.CreateFailureHidesServerError | frontend/src/screens/ProductListScreen.js:154 | pressed over the product table, an as-written failed create toasts the empty error; the corrected one toasts the server's |
| ProductListScreen.CreateFailureRepeatsPageError | frontend/src/screens/ProductListScreen.js:154 | the create button is in the header, so it can be pressed over the error panel; there the as-written toast is built from the displayed fetch error (`PageErrorToast`), not from the server's error, while the corrected one toasts the server's |
| ProductListScreen.DeleteAsWritten | frontend/src/screens/ProductListScreen.js:176-182 | a failed delete toasts the page's own error, not the one caught; a confirmed delete leaves loadingDelete false and successDelete set exactly when the server accepted |
| ProductListScreen.Delete | frontend/src/screens/ProductListScreen.js:164-185 | without confirmation nothing happens; otherwise loadingDelete is clear, successDelete records success, and the outcome is toasted |
| ProductListScreen.DeleteFailureHidesServerError | frontend/src/screens/ProductListScreen.js:178 | from the product table, an as-written failed delete toasts the empty error; the corrected one toasts the server's |
| ProductListScreen.DeleteThenRefetch | frontend/src/screens/ProductListScreen.js:123-128 | a successful delete is acknowledged once, and then the list refetches |
| ProductListScreen.DeleteSpinnerNeverShows | frontend/src/screens/ProductListScreen.js:164-185 | since no DELETE_REQUEST is ever dispatched, loadingDelete never turns on |
| ProductListScreen.CurrentPage | frontend/src/screens/ProductListScreen.js:93 | the page is the truthy 'page' parameter, else 1 |
| ProductListScreen.FirstPageByDefault | frontend/src/screens/ProductListScreen.js:252-256 | with no page parameter, exactly the first link is highlighted |
| ProductListScreen.DigitPageHighlighted | frontend/src/screens/ProductListScreen.js:252-256 | a numeric page parameter highlights exactly that link |
| OrderListScreen.Reduce | frontend/src/screens/OrderListScreen.js:13-48 | field by field; DELETE_FAIL clears only loadingDelete, keeping successDelete; unknown actions change nothing |
| OrderListScreen.EffectActions | frontend/src/screens/OrderListScreen.js:89-94 | a set successDelete is acknowledged with DELETE_RESET; otherwise the orders are fetched |
| OrderListScreen.DeleteAsWritten | frontend/src/screens/OrderListScreen.js:112-119 | a failed delete toasts the page's own error, not the one caught; a confirmed delete clears loadingDelete, sets successDelete exactly on success and keeps the orders |
| OrderListScreen.Delete | frontend/src/screens/OrderListScreen.js:98-121 | without confirmation nothing happens; otherwise loadingDelete is clear, successDelete records success, the other fields are kept, and the outcome is toasted |
| OrderListScreen.DeleteFailureHidesServerError | frontend/src/screens/OrderListScreen.js:114 | from the order table, an as-written failed delete toasts the empty error; the corrected one toasts the server's |
| OrderListScreen.DeleteThenRefetch | frontend/src/screens/OrderListScreen.js:89-94 | a successful delete is acknowledged once, and then the orders refetch |
| OrderListScreen.DeleteFailDiffers | frontend/src/screens/OrderListScreen.js:38-40 | on DELETE_FAIL the order list keeps successDelete where the product list clears it |
| OrderListScreen.Rows | frontend/src/screens/OrderListScreen.js:147-159 | one row per order, in order, built from the shared cells |
| OrderListScreen.DeletedUserStillListed | frontend/src/screens/OrderListScreen.js:150 | an order without a user is listed under 'DELETED USER' |
| OrderCells.PaidCell | frontend/src/screens/OrderListScreen.js:153 | a paid order shows the first ten characters of paidAt, otherwise 'No' |
| OrderCells.DateCell | frontend/src/screens/OrderListScreen.js:151 | the date cell is a prefix of createdAt of at most ten characters, and exactly ten when createdAt has at least ten |
| OrderCells.DeliveredCell | frontend/src/screens/OrderListScreen.js:156-158 | a delivered order shows the first ten characters of deliveredAt, otherwise 'No' |
| OrderCells.UserCell | frontend/src/screens/OrderListScreen.js:150 | the cell shows the user's name, or 'DELETED USER' |
| OrderCells.CellsRevealFlags | frontend/src/screens/OrderListScreen.js:153-158 | with full timestamps, a cell reads 'No' iff its flag is unset, and otherwise shows the ten-character date |
| OrderHistoryScreen.Reduce | frontend/src/screens/OrderHistoryScreen.js:12-27 | FETCH_REQUEST sets loading, FETCH_SUCCESS stores the orders, FETCH_FAIL stores the error, and others change nothing |
| OrderHistoryScreen.Rows | frontend/src/screens/OrderHistoryScreen.js:96-106 | one row per order with its date, paid and delivered cells |
| OrderHistoryScreen.MountFetchSettles | frontend/src/screens/OrderHistoryScreen.js:46-70 | after the mount fetch the screen shows the fetched orders or the error, never the spinner |
| OrderHistoryScreen.SameCellsAsAdminList | frontend/src/screens/OrderHistoryScreen.js:98-106 | the history shows the same id, date, paid and delivered cells as the admin list |
| ProductEditScreen.Reduce | frontend/src/screens/ProductEditScreen.js:15-39 | FETCH_SUCCESS only clears loading, FETCH_FAIL stores the error, UPDATE_* drive loadingUpdate, and others change nothing |
| ProductEditScreen.FormOf | frontend/src/screens/ProductEditScreen.js:80-88 | the form filled from a fetched product, sent back under any id, reads back as that product with that id |
| ProductEditScreen.Fetch | frontend/src/screens/ProductEditScreen.js:72-101 | a fetched product fills the form; a failure stores the error and keeps the form |
| ProductEditScreen.Payload | frontend/src/screens/ProductEditScreen.js:111-123 | the PUT body is `_id` = the route id plus the eight form fields |
| ProductEditScreen.UneditedFormResendsProduct | frontend/src/screens/ProductEditScreen.js:79-123 | saving the unedited form sends back the fetched product under the route's id |
| ProductEditScreen.Submit | frontend/src/screens/ProductEditScreen.js:104-142 | loadingUpdate ends cleared either way; success toasts and goes to /admin/products, failure toasts and stays |
| ProductEditScreen.ButtonDisabled | frontend/src/screens/ProductEditScreen.js:222 | the update button is disabled exactly while loadingUpdate is set |
| ProductEditScreen.ButtonDisabledWhileUpdating | frontend/src/screens/ProductEditScreen.js:222 | the button is disabled while an update is in flight and re-enabled once it settles |
| ProfileScreen.Reduce | frontend/src/screens/ProfileScreen.js:10-26 | UPDATE_REQUEST sets loadingUpdate, UPDATE_SUCCESS and UPDATE_FAIL clear it, and any other tag, FETCH_FAIL included, changes nothing |
| ProfileScreen.InitialForm | frontend/src/screens/ProfileScreen.js:36-39 | name and email come from the signed-in user; the passwords start empty |
| ProfileScreen.Body | frontend/src/screens/ProfileScreen.js:56-62 | the request body is name, email and password only |
| ProfileScreen.ConfirmationIgnored | frontend/src/screens/ProfileScreen.js:39 | the confirmation field never changes what is sent |
| ProfileScreen.UntouchedFormBody | frontend/src/screens/ProfileScreen.js:36-62 | the untouched form sends the user's own name and email with an empty password |
| ProfileScreen.Outcome | frontend/src/screens/ProfileScreen.js:52-83 | success stores the returned user, persists it under userInfo and toasts success; failure only toasts the caught error |
| ProfileScreen.SubmitAsWritten | frontend/src/screens/ProfileScreen.js:49-85 | success stores and persists the user and toasts; a failure leaves loadingUpdate set |
| ProfileScreen.FailedUpdateStaysLoading | frontend/src/screens/ProfileScreen.js:78-81 | after a failed update, loadingUpdate stays set until a later update succeeds: a later failure dispatches FETCH_FAIL again and UPDATE_FAIL is never sent |
| ProfileScreen.Submit | frontend/src/screens/ProfileScreen.js:49-85 | corrected: loadingUpdate ends cleared either way, and the handler dispatches iff the update succeeded |
| ProfileScreen.SubmitVersionsDiffer | frontend/src/screens/ProfileScreen.js:78-81 | the two versions have the same effects and differ in state exactly on failure |
| HomeScreen.Reduce | frontend/src/screens/HomeScreen.js:12-27 | FETCH_REQUEST sets loading, FETCH_SUCCESS stores the products, FETCH_FAIL stores the error, and others change nothing |
| HomeScreen.MountFetchSettles | frontend/src/screens/HomeScreen.js:34-58 | the page starts on the spinner, then shows the fetched products, or the error with the list still empty |
| HomeScreen.ProductsChangeOnlyOnSuccess | frontend/src/screens/HomeScreen.js:12-27 | only a fetch success changes the products shown |

## Left out

- Network calls: every server answer (a product's live stock, a created
  order's id, a user, an order, success or failure) is an input, failures
  included.
- Money in floating point: amounts are integer cents. `Number.EPSILON` in
  `round2` and `toFixed` formatting are left out, and `Math.round` is
  modelled as rounding half up on exact cents.
- OrderListScreen.Rows: leaves out the TOTALE column
  (`order.totalPrice.toFixed(2)`, OrderListScreen.js:152), because it is
  only decimal formatting of the stored total.
- OrderHistoryScreen.Rows: leaves out the same TOTALE column
  (OrderHistoryScreen.js:100), for the same reason.
- `utils.js` and `getError` are not part of this model.
  - Error toasts carry the error text directly.
  - A toast built from the screen's own `error` state is recorded as
    `PageErrorToast`.
  - In `SearchScreen.FetchAsWritten`, `getError` applied to the previous
    error is the parameter `getError`.
- `Store.js` is not part of this model. Store actions stay abstract.
  `CheckoutGate.AssumedSave` is an assumption about the three save actions
  and is used only by `CheckoutGate.CheckoutWalk` and
  `CheckoutGate.DefaultSelectionPassesGate`.
- Storage and JSON: storage writes are logged as (key, value) effects,
  with no serialisation.
- User prompts: `window.confirm` is a boolean input, and `window.alert` and
  toasts are effects.
- SigninScreen.Submit: models the handler once the browser's `required`
  check has passed (SigninScreen.js:70,78); with an empty field the browser
  never calls it.
- ProfileScreen.Submit: likewise, after the `required` check on name and
  email (ProfileScreen.js:99,108).
- ProfileScreen.SubmitAsWritten: likewise, after the same check.
- ProductEditScreen.Submit: likewise, after the `required` checks of the
  edit form (ProductEditScreen.js:162-218).
- Email format: no form models the browser's format check on email inputs.
  Only the shipping and sign-up forms model the non-empty check
  (`ShippingAddressScreen.RequiredFilled`, `SignupScreen.RequiredFilled`).
- React machinery: hooks, effect scheduling and dependency lists,
  rendering, Helmet, layout and the reducer logger on the home page.
  Effects are modelled as one pass over the current state.
- PayPal SDK: order creation, capture and script loading are left out. The
  order page's effect only decides to load the script (`LoadPayPal`), and
  the pay handler starts after capture.
- URL encoding: query strings are ordered key/value lists with no
  percent-encoding, and numbers are not converted to text.
- `Number(page)` is modelled for numbers and plain decimal digits. Other
  text is taken as NaN, although JavaScript also accepts whitespace, signs
  and exponents.
- Undefined booleans in initial states are taken as false, and an empty
  `{}` order or `[]` product as absent. Only their truthiness is used.
- The product list's fetch URL carries a trailing space after the page
  number. It is not modelled, since only the server sees it.
- `frontend/src/components/CheckoutSteps.js` is presentational, and its
  step numbers appear only as `CheckoutGate.Step`.
- The backend seed data and scripts contain no client logic.
- The cart's item count and subtotal are modelled as integers and cents.
  The displayed subtotal's float formatting is left out.

## Findings

| source | as written | input that shows it | evidently intended | confidence | as-written member | corrected member |
|---|---|---|---|---|---|---|
| frontend/src/screens/ProfileScreen.js:79-81 | a failed profile update dispatches FETCH_FAIL, which the reducer does not handle | any server error on submit: loadingUpdate stays true | dispatch UPDATE_FAIL so the flag is cleared | high; not executed | ProfileScreen.SubmitAsWritten | ProfileScreen.Submit |
| frontend/src/screens/ProductListScreen.js:154 | a failed create toasts `getError(error)`, the page's own fetch error, instead of the caught `err` | create pressed on the product table, server refuses: the toast is built from '' | toast `getError(err)` | high; not executed | ProductListScreen.CreateAsWritten | ProductListScreen.Create |
| frontend/src/screens/ProductListScreen.js:178 | a failed delete toasts `getError(error)` instead of the caught `err` | delete confirmed on the product table, server refuses: the toast is built from '' | toast `getError(err)` | high; not executed | ProductListScreen.DeleteAsWritten | ProductListScreen.Delete |
| frontend/src/screens/OrderListScreen.js:114 | a failed delete toasts `getError(error)` instead of the caught `err` | delete confirmed on the order table, server refuses: the toast is built from '' | toast `getError(err)` | high; not executed | OrderListScreen.DeleteAsWritten | OrderListScreen.Delete |
| frontend/src/screens/SearchScreen.js:134 | a failed search dispatches FETCH_FAIL with `getError(error)`, the previous error state, instead of the caught `err` | any failed search: the stored error is the same whatever the server answered | `getError(err)` | high; not executed | SearchScreen.FetchAsWritten | SearchScreen.Fetch |

=== FILE: actions.dfy ===
/** The tagged union of every action type the screens dispatch to their local
    reducers. Each screen's reducer handles a subset and returns its state
    unchanged for the rest; `Unrecognised` stands for any other tag. The type
    parameter is the payload a screen's fetch (and payment) responses carry. */
module Actions {
  import opened Domain

  datatype Action<P> =
    | FetchRequest
    | FetchSuccess(payload: P)
    | FetchFail(error: string)
    | CreateRequest
    | CreateSuccess
    | CreateFail
    | UpdateRequest
    | UpdateSuccess
    | UpdateFail
    | DeleteRequest
    | DeleteSuccess
    | DeleteFail
    | DeleteReset
    | PayRequest
    | PaySuccess(paid: P)
    | PayFail(error: string)
    | PayReset
    | DeliverRequest
    | DeliverSuccess(delivered: P)
    | DeliverFail
    | DeliverReset
    | Unrecognised(tag: string)

  /** Dispatching `actions` one after another, in order. */
  function Run<S, P>(reduce: (S, Action<P>) -> S, s: S, actions: seq<Action<P>>): S
    decreases |actions|
  {
    if |actions| == 0 then s else Run(reduce, reduce(s, actions[0]), actions[1..])
  }

  lemma RunSingle<S, P>(reduce: (S, Action<P>) -> S, s: S, a: Action<P>)
    ensures Run(reduce, s, [a]) == reduce(s, a)
  {
    assert [a][1..] == [];
    assert Run(reduce, s, [a]) == Run(reduce, reduce(s, a), []);
  }

  lemma RunPair<S, P>(reduce: (S, Action<P>) -> S, s: S, a: Action<P>, b: Action<P>)
    ensures Run(reduce, s, [a, b]) == reduce(reduce(s, a), b)
  {
    assert [a, b][1..] == [b];
    assert [b][1..] == [];
    assert Run(reduce, s, [a, b]) == Run(reduce, reduce(s, a), [b]);
    assert Run(reduce, reduce(s, a), [b]) == Run(reduce, reduce(reduce(s, a), b), []);
  }

  lemma {:induction false} RunAppend<S, P>(reduce: (S, Action<P>) -> S, s: S, xs: seq<Action<P>>, ys: seq<Action<P>>)
    ensures Run(reduce, s, xs + ys) == Run(reduce, Run(reduce, s, xs), ys)
    decreases |xs|
  {
    if |xs| == 0 {
      assert xs + ys == ys;
    } else {
      assert (xs + ys)[1..] == xs[1..] + ys;
      RunAppend(reduce, reduce(s, xs[0]), xs[1..], ys);
    }
  }

  /** A handler's result: the screen's reducer state after the actions it
      dispatched locally, and its effects outside the screen. */
  datatype Handled<S> = Handled(state: S, effects: seq<Effect>)

  /** What a list or detail screen renders: `loading ? <LoadingBox> : error ?
      <MessageBox> : content`. */
  datatype Panel = LoadingPanel | ErrorPanel(message: string) | ContentPanel

  function PanelOf(loading: bool, error: string): (p: Panel)
    ensures p.ContentPanel? <==> !loading && error == ""
    ensures p.ErrorPanel? ==> p.message == error && error != ""
  {
    if loading then LoadingPanel else if error != "" then ErrorPanel(error) else ContentPanel
  }

  /** Page buttons `1..pages`, each flagged when `Number(page)` equals its
      number (`None` is NaN, which equals nothing). */
  function PageLinks(pages: nat, current: Option<int>): (links: seq<(int, bool)>)
    ensures |links| == pages
    ensures forall i :: 0 <= i < pages ==> links[i].0 == i + 1
    ensures forall i :: 0 <= i < pages ==> (links[i].1 <==> current == Some(i + 1))
    ensures forall i, j :: 0 <= i < j < pages ==> !(links[i].1 && links[j].1)
    ensures current.Some? && 1 <= current.value <= pages ==> links[current.value - 1].1
    ensures (exists i :: 0 <= i < pages && links[i].1) <==> current.Some? && 1 <= current.value <= pages
  {
    seq(pages, i => (i + 1, current == Some(i + 1)))
  }
}

=== FILE: cart_screen.dfy ===
/** The cart screen: quantity buttons guarded by a live stock lookup, removal,
    the displayed item count and subtotal, and the checkout button. */
module CartScreen {
  import opened Domain
  import Pricing

  const OutOfStockMessage := "Sorry. Product is out of stock"
  const CheckoutPath := "/signin?redirect=/shipping"

  /** `updateCartHandler(item, quantity)`: `live` is the product's
      countInStock as fetched from the server for this update, or the failed
      request. The request is outside any try/catch, so a failure ends the
      handler with no effect at all. */
  function UpdateCart(item: CartItem, quantity: int, live: Result<int>): (effects: seq<Effect>)
    ensures live.Failed? ==> effects == []
    ensures Dispatches(effects) <==> live.Ok? && quantity <= live.value
    ensures live.Ok? && !Dispatches(effects) ==> effects == [Alert(OutOfStockMessage)]
    ensures Dispatches(effects) ==> effects == [Dispatch(CartAddItem(item.(quantity := quantity)))]
  {
    match live
    case Failed(_) => []
    case Ok(liveCount) =>
      if liveCount < quantity then [Alert(OutOfStockMessage)]
      else
        var effects := [Dispatch(CartAddItem(item.(quantity := quantity)))];
        assert effects[0].Dispatch?;
        effects
  }

  /** The minus button is disabled at quantity 1. */
  function DecrementEnabled(item: CartItem): (enabled: bool)
    ensures enabled <==> item.quantity != 1
  {
    item.quantity != 1
  }

  /** The plus button is disabled once the quantity equals the stock count
      recorded in the cart line. */
  function IncrementEnabled(item: CartItem): (enabled: bool)
    ensures enabled <==> item.quantity != item.product.countInStock
  {
    item.quantity != item.product.countInStock
  }

  function Decrement(item: CartItem, live: Result<int>): (effects: seq<Effect>)
    ensures live.Failed? ==> effects == []
    ensures Dispatches(effects) <==> live.Ok? && item.quantity - 1 <= live.value
    ensures Dispatches(effects) ==> effects == [Dispatch(CartAddItem(item.(quantity := item.quantity - 1)))]
  {
    UpdateCart(item, item.quantity - 1, live)
  }

  function Increment(item: CartItem, live: Result<int>): (effects: seq<Effect>)
    ensures live.Failed? ==> effects == []
    ensures Dispatches(effects) <==> live.Ok? && item.quantity + 1 <= live.value
    ensures live.Ok? && !Dispatches(effects) ==> effects == [Alert(OutOfStockMessage)]
    ensures Dispatches(effects) ==> effects == [Dispatch(CartAddItem(item.(quantity := item.quantity + 1)))]
  {
    UpdateCart(item, item.quantity + 1, live)
  }

  /** A line within its bounds whose stock has not changed since it was added:
      every enabled button is accepted and the line stays within
      [1, countInStock]. */
  lemma {:induction false} EnabledButtonsKeepBounds(item: CartItem)
    requires 1 <= item.quantity <= item.product.countInStock
    ensures DecrementEnabled(item) ==>
      Decrement(item, Ok(item.product.countInStock)) == [Dispatch(CartAddItem(item.(quantity := item.quantity - 1)))]
      && 1 <= item.quantity - 1
    ensures IncrementEnabled(item) ==>
      Increment(item, Ok(item.product.countInStock)) == [Dispatch(CartAddItem(item.(quantity := item.quantity + 1)))]
      && item.quantity + 1 <= item.product.countInStock
  {
  }

  /** If the stock dropped below the line's snapshot, pressing plus is
      rejected with the alert even though the button is enabled. */
  lemma StaleStockRejectsIncrement(item: CartItem, liveCount: int)
    requires IncrementEnabled(item)
    requires liveCount <= item.quantity
    ensures Increment(item, Ok(liveCount)) == [Alert(OutOfStockMessage)]
  {
  }

  /** Removal dispatches the line itself; no stock lookup is involved. */
  function Remove(item: CartItem): (effects: seq<Effect>)
    ensures |effects| == 1 && effects[0].Dispatch? && effects[0].action == CartRemoveItem(item)
  {
    [Dispatch(CartRemoveItem(item))]
  }

  /** `cartItems.reduce((a, c) => a + c.quantity, 0)`, folded from the left. */
  function ItemCount(items: seq<CartItem>): (n: int)
    ensures |items| == 0 ==> n == 0
    ensures (forall i :: 0 <= i < |items| ==> items[i].quantity >= 0) ==> n >= 0
    ensures |items| > 0 && (forall i :: 0 <= i < |items| ==> items[i].quantity >= 0) ==> n >= items[|items| - 1].quantity
    decreases |items|
  {
    if |items| == 0 then 0 else ItemCount(items[..|items| - 1]) + items[|items| - 1].quantity
  }

  /** `cartItems.reduce((a, c) => a + c.price * c.quantity, 0)`, folded from the left. */
  function DisplayedSubtotal(items: seq<CartItem>): (r: int)
    ensures |items| == 0 ==> r == 0
    ensures |items| == 1 ==> r == items[0].product.price * items[0].quantity
    decreases |items|
  {
    if |items| == 0 then 0
    else DisplayedSubtotal(items[..|items| - 1]) + items[|items| - 1].product.price * items[|items| - 1].quantity
  }

  /** The cart's subtotal is the same amount the place-order screen charges
      for the items. */
  lemma {:induction false} DisplayedSubtotalIsItemsPrice(items: seq<CartItem>)
    ensures DisplayedSubtotal(items) == Pricing.Subtotal(items)
    decreases |items|
  {
    if |items| > 0 {
      var init, last := items[..|items| - 1], items[|items| - 1];
      DisplayedSubtotalIsItemsPrice(init);
      assert items == init + [last];
      Pricing.SubtotalAppend(init, [last]);
      assert [last][1..] == [];
    }
  }

  /** An empty cart shows a zero count; a cart of positive quantities shows at
      least one unit per line. */
  lemma {:induction false} ItemCountAtLeastLines(items: seq<CartItem>)
    requires forall i :: 0 <= i < |items| ==> items[i].quantity >= 1
    ensures ItemCount(items) >= |items|
    decreases |items|
  {
    if |items| > 0 {
      ItemCountAtLeastLines(items[..|items| - 1]);
    }
  }

  function CheckoutEnabled(items: seq<CartItem>): (enabled: bool)
    ensures enabled <==> |items| > 0
  {
    |items| != 0
  }

  /** Checkout always goes through sign-in with the shipping screen as the
      return target. */
  function Checkout(): (effects: seq<Effect>)
    ensures NavigatesTo(effects, CheckoutPath) && !Dispatches(effects)
  {
    var effects := [Navigate(CheckoutPath)];
    assert effects[0] == Navigate(CheckoutPath);
    effects
  }
}

=== FILE: checkout_gate.dfy ===
/** The checkout gate: each screen's mount check composed into one function of
    the client state, the order of the checkout steps, where a chain of
    redirects ends, and the path through sign-in, shipping and payment to
    placing the order. */
module CheckoutGate {
  import opened Domain
  import SigninScreen
  import SignupScreen
  import ShippingAddressScreen
  import PaymentMethodScreen
  import PlaceOrderScreen
  import OrderScreen

  datatype Screen =
    | CartPage
    | Signin(redirectParam: Option<string>)
    | Signup(redirectParam: Option<string>)
    | Shipping
    | Payment
    | PlaceOrder
    | OrderDetails(id: string)

  /** Mounting a screen in a given client state. */
  function Visit(screen: Screen, st: ClientState): Mount {
    match screen
    case CartPage => Stay
    case Signin(r) => SigninScreen.OnMount(st, r)
    case Signup(r) => SignupScreen.OnMount(st, r)
    case Shipping => ShippingAddressScreen.OnMount(st)
    case Payment => PaymentMethodScreen.OnMount(st)
    case PlaceOrder => PlaceOrderScreen.OnMount(st)
    case OrderDetails(_) => OrderScreen.OnMount(st)
  }

  /** What each screen needs of the client state to render. */
  predicate Ready(screen: Screen, st: ClientState) {
    match screen
    case CartPage => true
    case Signin(_) => st.userInfo.None?
    case Signup(_) => st.userInfo.None?
    case Shipping => st.userInfo.Some?
    case Payment => Truthy(st.cart.shippingAddress.address)
    case PlaceOrder => Truthy(st.cart.paymentMethod)
    case OrderDetails(_) => st.userInfo.Some?
  }

  /** A screen renders without redirecting exactly when its precondition holds. */
  lemma StaysIffReady(screen: Screen, st: ClientState)
    ensures Visit(screen, st).Stay? <==> Ready(screen, st)
  {
  }

  /** The in-app paths the gate redirects to. */
  function ParsePath(path: string): Option<Screen> {
    if path == "/cart" then Some(CartPage)
    else if path == "/shipping" then Some(Shipping)
    else if path == "/payment" then Some(Payment)
    else if path == "/placeorder" then Some(PlaceOrder)
    else if path == "/signin?redirect=/shipping" then Some(Signin(Some("/shipping")))
    else None
  }

  /** Position in the checkout-steps bar each screen highlights up to. */
  function Step(screen: Screen): nat {
    match screen
    case Signin(_) => 1
    case Shipping => 2
    case Payment => 3
    case PlaceOrder => 4
    case _ => 0
  }

  predicate Gated(screen: Screen) {
    screen.Shipping? || screen.Payment? || screen.PlaceOrder?
  }

  /** A gated checkout screen only ever sends the user one step back. */
  lemma GateRedirectsOneStepBack(screen: Screen, st: ClientState)
    requires Gated(screen) && Visit(screen, st).Redirect?
    ensures ParsePath(Visit(screen, st).path).Some?
    ensures Step(ParsePath(Visit(screen, st).path).value) == Step(screen) - 1
  {
  }

  datatype Landing = At(screen: Screen) | Elsewhere(path: string) | StillRedirecting

  /** Following redirects from `screen`, at most `fuel` of them. */
  function Settle(screen: Screen, st: ClientState, fuel: nat): Landing
    decreases fuel
  {
    match Visit(screen, st)
    case Stay => At(screen)
    case Redirect(path) =>
      if fuel == 0 then StillRedirecting
      else match ParsePath(path)
        case None => Elsewhere(path)
        case Some(next) => Settle(next, st, fuel - 1)
  }

  /** The first checkout step whose precondition is missing, looking back
      from the place-order screen. */
  function PlaceOrderLandingScreen(st: ClientState): Screen {
    if Truthy(st.cart.paymentMethod) then PlaceOrder
    else if Truthy(st.cart.shippingAddress.address) then Payment
    else if st.userInfo.Some? then Shipping
    else Signin(Some("/shipping"))
  }

  /** Opening the place-order screen ends, after at most three redirects, on
      the place-order, payment, shipping or sign-in screen, and that screen
      renders. */
  lemma {:induction false} PlaceOrderLanding(st: ClientState)
    ensures Settle(PlaceOrder, st, 3) == At(PlaceOrderLandingScreen(st))
    ensures Ready(PlaceOrderLandingScreen(st), st)
  {
    if !Truthy(st.cart.paymentMethod) {
      assert Settle(PlaceOrder, st, 3) == Settle(Payment, st, 2);
      if !Truthy(st.cart.shippingAddress.address) {
        assert Settle(Payment, st, 2) == Settle(Shipping, st, 1);
        if st.userInfo.None? {
          assert Settle(Shipping, st, 1) == Settle(Signin(Some("/shipping")), st, 0);
        }
      }
    }
  }

  /** The gate is not cumulative: the place-order screen checks only the
      payment method, so it renders for a visitor with no session and no
      saved address. */
  lemma PlaceOrderChecksOnlyPayment(items: seq<CartItem>)
    ensures Visit(PlaceOrder, ClientState(None, Cart(items, NoSavedAddress, Some("PayPal")))) == Stay
  {
  }

  /** The effect of the three save actions on the client state, ASSUMED from
      their names: the global store's reducer is not part of this model. */
  function AssumedSave(st: ClientState, a: StoreAction): ClientState {
    match a
    case SaveShippingAddress(addr) => st.(cart := st.cart.(shippingAddress := Saved(addr)))
    case SavePaymentMethod(m) => st.(cart := st.cart.(paymentMethod := Some(m)))
    case UserSignin(u) => st.(userInfo := Some(u))
    case _ => st
  }

  function ApplyAssumed(st: ClientState, effects: seq<Effect>): ClientState
    decreases |effects|
  {
    if |effects| == 0 then st
    else ApplyAssumed(if effects[0].Dispatch? then AssumedSave(st, effects[0].action) else st, effects[1..])
  }

  /** Under the assumed save semantics, signing in from the cart's checkout
      link, submitting a filled address and submitting any selected payment
      method each navigate to the next step, and that step renders. */
  lemma {:induction false} CheckoutWalk(st0: ClientState, user: UserInfo, address: ShippingAddress, selection: string)
    requires ShippingAddressScreen.RequiredFilled(address)
    requires selection != ""
    ensures var e1 := SigninScreen.Submit(Some("/shipping"), Ok(user));
      var st1 := ApplyAssumed(st0, e1);
      e1[|e1| - 1] == Navigate("/shipping") && Visit(Shipping, st1) == Stay
    ensures var st1 := ApplyAssumed(st0, SigninScreen.Submit(Some("/shipping"), Ok(user)));
      var e2 := ShippingAddressScreen.Submit(address);
      var st2 := ApplyAssumed(st1, e2);
      e2[|e2| - 1] == Navigate("/payment") && Visit(Payment, st2) == Stay
    ensures var st1 := ApplyAssumed(st0, SigninScreen.Submit(Some("/shipping"), Ok(user)));
      var st2 := ApplyAssumed(st1, ShippingAddressScreen.Submit(address));
      var e3 := PaymentMethodScreen.Submit(selection);
      var st3 := ApplyAssumed(st2, e3);
      e3[|e3| - 1] == Navigate("/placeorder") && Visit(PlaceOrder, st3) == Stay
        && st3.userInfo == Some(user) && Truthy(st3.cart.shippingAddress.address)
  {
    var e1 := SigninScreen.Submit(Some("/shipping"), Ok(user));
    var st1 := ApplyAssumed(st0, e1);
    ThreeEffects(st0, e1);
    assert st1 == st0.(userInfo := Some(user));
    var e2 := ShippingAddressScreen.Submit(address);
    ThreeEffects(st1, e2);
    var st2 := ApplyAssumed(st1, e2);
    assert st2 == st1.(cart := st1.cart.(shippingAddress := Saved(address)));
    var e3 := PaymentMethodScreen.Submit(selection);
    ThreeEffects(st2, e3);
  }

  /** A dispatch followed by two effects that are not dispatches applies the
      dispatch alone. */
  lemma ThreeEffects(st: ClientState, e: seq<Effect>)
    requires |e| == 3 && e[0].Dispatch? && !e[1].Dispatch? && !e[2].Dispatch?
    ensures ApplyAssumed(st, e) == AssumedSave(st, e[0].action)
  {
    var s1 := AssumedSave(st, e[0].action);
    assert ApplyAssumed(st, e) == ApplyAssumed(s1, e[1..]);
    assert ApplyAssumed(s1, e[1..]) == ApplyAssumed(s1, e[2..]);
    assert ApplyAssumed(s1, e[2..]) == ApplyAssumed(s1, e[3..]);
  }

  /** The payment screen's starting selection is never empty, so submitting
      it unchanged always satisfies the place-order gate. */
  lemma {:induction false} DefaultSelectionPassesGate(st: ClientState)
    ensures var e := PaymentMethodScreen.Submit(PaymentMethodScreen.InitialSelection(st.cart.paymentMethod));
      Visit(PlaceOrder, ApplyAssumed(st, e)) == Stay
  {
    var e := PaymentMethodScreen.Submit(PaymentMethodScreen.InitialSelection(st.cart.paymentMethod));
    ThreeEffects(st, e);
  }
}

=== FILE: domain.dfy ===
/** Entities shared by the storefront screens: catalogue products, cart lines,
    shipping addresses, signed-in users and orders, together with the effects a
    screen handler can have outside its own reducer (store dispatches, durable
    storage writes, navigation, alerts and toasts). Money is integer cents. */
module Domain {

  datatype Option<+T> = None | Some(value: T)

  /** JavaScript truthiness of an optional text: absent and '' are both falsy. */
  predicate Truthy(o: Option<string>) {
    o.Some? && o.value != ""
  }

  /** `o || fallback` on an optional text. */
  function OrElse(o: Option<string>, fallback: string): (r: string)
    ensures Truthy(o) ==> r == o.value
    ensures !Truthy(o) ==> r == fallback
  {
    if Truthy(o) then o.value else fallback
  }

  /** A server response: the decoded body, or the text `getError` extracted
      from the caught exception. */
  datatype Result<+T> = Ok(value: T) | Failed(error: string)

  /** A form or query value that JavaScript keeps either as text or as a number. */
  datatype Value = Text(text: string) | Num(n: int)

  predicate TruthyValue(v: Value) {
    match v
    case Text(s) => s != ""
    case Num(n) => n != 0
  }

  predicate IsDigit(c: char) {
    '0' as int <= c as int <= '9' as int
  }

  function DecimalValue(s: string): nat
    requires forall i :: 0 <= i < |s| ==> IsDigit(s[i])
    decreases |s|
  {
    if |s| == 0 then 0
    else
      var last := s[|s| - 1];
      assert IsDigit(last);
      10 * DecimalValue(s[..|s| - 1]) + (last as int - '0' as int)
  }

  /** `Number(v)` for the values a page parameter takes: a number, or a text
      of decimal digits; any other text is NaN (`None`), which equals nothing. */
  function NumberOf(v: Value): Option<int> {
    match v
    case Num(n) => Some(n)
    case Text(s) =>
      if |s| > 0 && forall i :: 0 <= i < |s| ==> IsDigit(s[i]) then Some(DecimalValue(s)) else None
  }

  /** A query string as an ordered list of key/value pairs (percent-encoding
      is left out). */
  type Query = seq<(string, Value)>

  /** `URLSearchParams.get(key)`: the first value under `key` (`GetFirst`
      states which one). */
  function Get(q: Query, key: string): (r: Option<Value>)
    ensures r.None? <==> forall i :: 0 <= i < |q| ==> q[i].0 != key
    decreases |q|
  {
    if |q| == 0 then None
    else if q[0].0 == key then Some(q[0].1)
    else Get(q[1..], key)
  }

  /** `sp.get(key) || fallback`. */
  function GetOr(q: Query, key: string, fallback: Value): Value {
    match Get(q, key)
    case Some(v) => if TruthyValue(v) then v else fallback
    case None => fallback
  }

  /** `Get` finds the entry at `k` when no earlier entry has its key. */
  lemma {:induction false} GetFirst(q: Query, k: nat)
    requires k < |q|
    requires forall j :: 0 <= j < k ==> q[j].0 != q[k].0
    ensures Get(q, q[k].0) == Some(q[k].1)
    decreases k
  {
    if k > 0 {
      GetFirst(q[1..], k - 1);
    }
  }

  datatype Product = Product(
    id: string,
    name: string,
    slug: string,
    image: string,
    brand: string,
    category: string,
    description: string,
    price: nat,          // cents
    countInStock: int)

  /** A cart line is the product object spread with a `quantity` field. */
  datatype CartItem = CartItem(product: Product, quantity: int)

  /** The five-field address as the shipping form submits it. */
  datatype ShippingAddress = ShippingAddress(
    fullName: string,
    address: string,
    city: string,
    postalCode: string,
    country: string)

  /** The address as held in the cart: `{}` before the first save, so every
      field may be absent. */
  datatype SavedAddress = SavedAddress(
    fullName: Option<string>,
    address: Option<string>,
    city: Option<string>,
    postalCode: Option<string>,
    country: Option<string>)

  const NoSavedAddress := SavedAddress(None, None, None, None, None)

  function Saved(a: ShippingAddress): (s: SavedAddress)
    ensures Truthy(s.address) <==> a.address != ""
  {
    SavedAddress(Some(a.fullName), Some(a.address), Some(a.city), Some(a.postalCode), Some(a.country))
  }

  datatype UserInfo = UserInfo(id: string, name: string, email: string, isAdmin: bool, token: string)

  datatype Cart = Cart(
    cartItems: seq<CartItem>,
    shippingAddress: SavedAddress,
    paymentMethod: Option<string>)

  /** The process-wide client state every screen reads from the store. */
  datatype ClientState = ClientState(userInfo: Option<UserInfo>, cart: Cart)

  datatype Order = Order(
    id: string,
    user: Option<UserInfo>,
    createdAt: string,
    totalPrice: int,
    isPaid: bool,
    paidAt: string,
    isDelivered: bool,
    deliveredAt: string)

  /** Actions sent to the global store; its reducer is not part of this model. */
  datatype StoreAction =
    | CartAddItem(item: CartItem)
    | CartRemoveItem(item: CartItem)
    | CartClear
    | SaveShippingAddress(address: ShippingAddress)
    | SavePaymentMethod(methodName: string)
    | UserSignin(user: UserInfo)

  /** What a durable storage key holds (JSON serialisation is left out). */
  datatype Stored = StoredUser(user: UserInfo) | StoredAddress(address: ShippingAddress) | StoredText(text: string)

  datatype Effect =
    | Dispatch(action: StoreAction)
    | StorageSet(key: string, value: Stored)
    | StorageRemove(key: string)
    | Navigate(path: string)
    | Alert(message: string)
    | ToastSuccess(message: string)
    /** An error toast showing `message`. */
    | ToastError(message: string)
    /** An error toast built by `getError` from the screen's own `error` state
        field instead of from the exception just caught. */
    | PageErrorToast(pageError: string)

  predicate IsNotification(e: Effect) {
    e.Alert? || e.ToastSuccess? || e.ToastError? || e.PageErrorToast?
  }

  /** True when a handler's effects are only notifications: it changed no
      store state, wrote no storage and did not navigate. */
  predicate OnlyNotifies(effects: seq<Effect>) {
    forall i :: 0 <= i < |effects| ==> IsNotification(effects[i])
  }

  /** What a gated screen does when it mounts: render, or navigate away. */
  datatype Mount = Stay | Redirect(path: string)

  predicate Dispatches(effects: seq<Effect>) {
    exists i :: 0 <= i < |effects| && effects[i].Dispatch?
  }

  predicate NavigatesTo(effects: seq<Effect>, path: string) {
    exists i :: 0 <= i < |effects| && effects[i] == Navigate(path)
  }

  /** `s.substring(0, 10)`. */
  function Prefix10(s: string): (r: string)
    ensures |r| <= 10 && r <= s
    ensures |s| >= 10 ==> |r| == 10
    ensures |s| < 10 ==> r == s
  {
    if |s| <= 10 then s else s[..10]
  }
}

=== FILE: home_screen.dfy ===
/** The home page: the catalogue fetch reducer and its initial state. */
module HomeScreen {
  import opened Domain
  import opened Actions

  datatype State = State(products: seq<Product>, loading: bool, error: string)

  /** Unlike the other fetch screens, the product list starts as an empty
      list rather than absent. */
  const Initial := State([], true, "")

  predicate Handles(a: Action<seq<Product>>) {
    a.FetchRequest? || a.FetchSuccess? || a.FetchFail?
  }

  function Reduce(s: State, a: Action<seq<Product>>): (r: State)
    ensures !Handles(a) ==> r == s
    ensures r.loading <==> a.FetchRequest? || (s.loading && !a.FetchSuccess? && !a.FetchFail?)
    ensures r.error == (if a.FetchFail? then a.error else s.error)
    ensures r.products == (if a.FetchSuccess? then a.payload else s.products)
  {
    match a
    case FetchRequest => s.(loading := true)
    case FetchSuccess(ps) => s.(products := ps, loading := false)
    case FetchFail(e) => s.(loading := false, error := e)
    case _ => s
  }

  /** The page starts on the spinner; after the fetch it shows the fetched
      products, or the error message with the list still empty. */
  lemma {:induction false} MountFetchSettles(response: Result<seq<Product>>)
    ensures PanelOf(Initial.loading, Initial.error) == LoadingPanel
    ensures var s := Run(Reduce, Initial, [FetchRequest,
              if response.Ok? then FetchSuccess(response.value) else FetchFail(response.error)]);
            (response.Ok? ==> PanelOf(s.loading, s.error) == ContentPanel && s.products == response.value)
            && (response.Failed? ==> !s.loading && s.error == response.error && s.products == [])
  {
    RunPair(Reduce, Initial, FetchRequest, if response.Ok? then FetchSuccess(response.value) else FetchFail(response.error));
  }

  /** Only a successful fetch changes the products shown: any run of actions
      without one leaves the list as it was. */
  lemma {:induction false} ProductsChangeOnlyOnSuccess(s: State, acts: seq<Action<seq<Product>>>)
    requires forall i :: 0 <= i < |acts| ==> !acts[i].FetchSuccess?
    ensures Run(Reduce, s, acts).products == s.products
    decreases |acts|
  {
    if |acts| > 0 {
      ProductsChangeOnlyOnSuccess(Reduce(s, acts[0]), acts[1..]);
    }
  }
}

=== FILE: order_cells.dfy ===
/** The cells of an order row that the admin order list and the customer
    order history both render. */
module OrderCells {
  import opened Domain

  const NotYet := "No"
  const DeletedUser := "DELETED USER"

  /** `order.isPaid ? order.paidAt.substring(0, 10) : 'No'`. */
  function PaidCell(o: Order): (cell: string)
    ensures o.isPaid ==> cell == Prefix10(o.paidAt)
    ensures !o.isPaid ==> cell == NotYet
  {
    if o.isPaid then Prefix10(o.paidAt) else NotYet
  }

  /** `order.isDelivered ? order.deliveredAt.substring(0, 10) : 'No'`. */
  function DeliveredCell(o: Order): (cell: string)
    ensures o.isDelivered ==> cell == Prefix10(o.deliveredAt)
    ensures !o.isDelivered ==> cell == NotYet
  {
    if o.isDelivered then Prefix10(o.deliveredAt) else NotYet
  }

  /** The order's date: the first ten characters of `createdAt`. */
  function DateCell(o: Order): (cell: string)
    ensures |cell| <= 10 && cell <= o.createdAt
    ensures |o.createdAt| >= 10 ==> |cell| == 10
  {
    Prefix10(o.createdAt)
  }

  /** `order.user ? order.user.name : 'DELETED USER'`. */
  function UserCell(o: Order): (cell: string)
    ensures o.user.Some? ==> cell == o.user.value.name
    ensures o.user.None? ==> cell == DeletedUser
  {
    match o.user
    case Some(u) => u.name
    case None => DeletedUser
  }

  /** With full timestamps (an ISO date is at least ten characters) the cells
      tell the flags apart: a cell reads 'No' exactly when its flag is unset,
      and otherwise is the ten-character date the timestamp starts with. */
  lemma CellsRevealFlags(o: Order)
    requires |o.paidAt| >= 10 && |o.deliveredAt| >= 10
    ensures PaidCell(o) == NotYet <==> !o.isPaid
    ensures DeliveredCell(o) == NotYet <==> !o.isDelivered
    ensures o.isPaid ==> |PaidCell(o)| == 10 && PaidCell(o) <= o.paidAt
    ensures o.isDelivered ==> |DeliveredCell(o)| == 10 && DeliveredCell(o) <= o.deliveredAt
  {
  }
}

=== FILE: order_history_screen.dfy ===
/** The signed-in customer's order history: its fetch reducer and the row
    cells it shares with the admin order list. */
module OrderHistoryScreen {
  import opened Domain
  import opened Actions
  import OrderCells
  import OrderListScreen

  datatype State = State(loading: bool, error: string, orders: Option<seq<Order>>)

  const Initial := State(true, "", None)

  predicate Handles(a: Action<seq<Order>>) {
    a.FetchRequest? || a.FetchSuccess? || a.FetchFail?
  }

  function Reduce(s: State, a: Action<seq<Order>>): (r: State)
    ensures !Handles(a) ==> r == s
    ensures r.loading <==> a.FetchRequest? || (s.loading && !a.FetchSuccess? && !a.FetchFail?)
    ensures r.error == (if a.FetchFail? then a.error else s.error)
    ensures r.orders == (if a.FetchSuccess? then Some(a.payload) else s.orders)
  {
    match a
    case FetchRequest => s.(loading := true)
    case FetchSuccess(os) => s.(orders := Some(os), loading := false)
    case FetchFail(e) => s.(loading := false, error := e)
    case _ => s
  }

  /** A history row: id, date, paid and delivered cells (no user column). */
  datatype Row = Row(id: string, date: string, paid: string, delivered: string)

  function Rows(orders: seq<Order>): (rows: seq<Row>)
    ensures |rows| == |orders|
    ensures forall i :: 0 <= i < |orders| ==>
      rows[i] == Row(orders[i].id, OrderCells.DateCell(orders[i]), OrderCells.PaidCell(orders[i]), OrderCells.DeliveredCell(orders[i]))
  {
    seq(|orders|, i requires 0 <= i < |orders| =>
      Row(orders[i].id, OrderCells.DateCell(orders[i]), OrderCells.PaidCell(orders[i]), OrderCells.DeliveredCell(orders[i])))
  }

  /** What the mount fetch leaves on screen: the table of the orders fetched,
      or the error; the screen never ends up still loading. */
  lemma {:induction false} MountFetchSettles(response: Result<seq<Order>>)
    ensures var s := Run(Reduce, Initial, [FetchRequest,
              if response.Ok? then FetchSuccess(response.value) else FetchFail(response.error)]);
            !s.loading
            && (response.Ok? ==> PanelOf(s.loading, s.error) == ContentPanel && s.orders == Some(response.value))
            && (response.Failed? && response.error != "" ==> PanelOf(s.loading, s.error) == ErrorPanel(response.error))
  {
    RunPair(Reduce, Initial, FetchRequest, if response.Ok? then FetchSuccess(response.value) else FetchFail(response.error));
  }

  /** The admin list shows the same id, date, paid and delivered cells for an
      order as the customer's history does. */
  lemma {:induction false} SameCellsAsAdminList(orders: seq<Order>, i: nat)
    requires i < |orders|
    ensures var h, a := Rows(orders)[i], OrderListScreen.Rows(orders)[i];
            h.id == a.id && h.date == a.date && h.paid == a.paid && h.delivered == a.delivered
  {
  }
}

=== FILE: order_list_screen.dfy ===
/** The admin order list: its reducer with delete flags, the effect that
    either acknowledges a finished delete or refetches, the delete handler
    behind a confirmation, and the row cells. */
module OrderListScreen {
  import opened Domain
  import opened Actions
  import OrderCells
  import ProductListScreen

  const DeletedMessage := "order deleted successfully"

  /** Only `loading` and `error` are initialised. */
  datatype State = State(
    loading: bool,
    error: string,
    orders: Option<seq<Order>>,
    loadingDelete: bool,
    successDelete: bool)

  const Initial := State(true, "", None, false, false)

  predicate Handles(a: Action<seq<Order>>) {
    || a.FetchRequest? || a.FetchSuccess? || a.FetchFail?
    || a.DeleteRequest? || a.DeleteSuccess? || a.DeleteFail? || a.DeleteReset?
  }

  function Reduce(s: State, a: Action<seq<Order>>): (r: State)
    ensures !Handles(a) ==> r == s
    ensures r.loading <==> a.FetchRequest? || (s.loading && !a.FetchSuccess? && !a.FetchFail?)
    ensures r.error == (if a.FetchFail? then a.error else s.error)
    ensures r.orders == (if a.FetchSuccess? then Some(a.payload) else s.orders)
    ensures r.loadingDelete <==> a.DeleteRequest? || (s.loadingDelete && !a.DeleteSuccess? && !a.DeleteFail? && !a.DeleteReset?)
    // unlike the product list, a failed delete leaves the success flag as it was
    ensures r.successDelete <==> a.DeleteSuccess? || (s.successDelete && !a.DeleteRequest? && !a.DeleteReset?)
  {
    match a
    case FetchRequest => s.(loading := true)
    case FetchSuccess(os) => s.(orders := Some(os), loading := false)
    case FetchFail(e) => s.(loading := false, error := e)
    case DeleteRequest => s.(loadingDelete := true, successDelete := false)
    case DeleteSuccess => s.(loadingDelete := false, successDelete := true)
    case DeleteFail => s.(loadingDelete := false)
    case DeleteReset => s.(loadingDelete := false, successDelete := false)
    case _ => s
  }

  /** The actions one run of the screen's effect dispatches synchronously. */
  function EffectActions(s: State): (acts: seq<Action<seq<Order>>>)
    ensures |acts| == 1
    ensures acts[0].DeleteReset? <==> s.successDelete
    ensures acts[0].FetchRequest? <==> !s.successDelete
  {
    if s.successDelete then [DeleteReset] else [FetchRequest]
  }

  /** `deleteHandler` with the answer to the confirmation and the server's
      answer; `failureToast` maps the caught error to the toast shown. */
  function DeleteWith(s: State, confirmed: bool, response: Result<()>, failureToast: string -> Effect): (h: Handled<State>)
    ensures !confirmed ==> h == Handled(s, [])
    ensures confirmed && response.Ok? ==> h.state == s.(loadingDelete := false, successDelete := true)
    // DELETE_REQUEST cleared the success flag before the failure arrived
    ensures confirmed && response.Failed? ==> h.state == s.(loadingDelete := false, successDelete := false)
    ensures confirmed && response.Ok? ==> h.effects == [ToastSuccess(DeletedMessage)]
    ensures confirmed && response.Failed? ==> h.effects == [failureToast(response.error)]
  {
    if !confirmed then Handled(s, [])
    else
      RunPair(Reduce, s, DeleteRequest, if response.Ok? then DeleteSuccess else DeleteFail);
      match response
      case Ok(_) => Handled(Run(Reduce, s, [DeleteRequest, DeleteSuccess]), [ToastSuccess(DeletedMessage)])
      case Failed(e) => Handled(Run(Reduce, s, [DeleteRequest, DeleteFail]), [failureToast(e)])
  }

  /** As written: the catch block toasts `getError(error)`, the screen's own
      fetch error, not the exception it caught. */
  function DeleteAsWritten(s: State, confirmed: bool, response: Result<()>): (h: Handled<State>)
    ensures confirmed && response.Failed? ==> h.effects == [PageErrorToast(s.error)]
    ensures confirmed ==> !h.state.loadingDelete && (h.state.successDelete <==> response.Ok?)
    ensures confirmed ==> h.state.orders == s.orders
  {
    DeleteWith(s, confirmed, response, _ => PageErrorToast(s.error))
  }

  /** Corrected: a failed delete toasts the error it caught. */
  function Delete(s: State, confirmed: bool, response: Result<()>): (h: Handled<State>)
    ensures !confirmed ==> h == Handled(s, [])
    ensures confirmed ==> !h.state.loadingDelete && (h.state.successDelete <==> response.Ok?)
    ensures confirmed ==> h.state.orders == s.orders && h.state.loading == s.loading && h.state.error == s.error
    ensures confirmed && response.Ok? ==> h.effects == [ToastSuccess(DeletedMessage)]
    ensures confirmed && response.Failed? ==> h.effects == [ToastError(response.error)]
  {
    DeleteWith(s, confirmed, response, e => ToastError(e))
  }

  /** The delete buttons are rendered only with the order table, when nothing
      is loading and there is no fetch error; so the as-written toast of a
      failed delete always carries the empty error, whatever the server
      answered, while the corrected handler shows the server's error. */
  lemma DeleteFailureHidesServerError(s: State, e: string)
    requires PanelOf(s.loading, s.error).ContentPanel?
    ensures DeleteAsWritten(s, true, Failed(e)).effects == [PageErrorToast("")]
    ensures Delete(s, true, Failed(e)).effects == [ToastError(e)]
  {
  }

  /** A successful delete is followed by one acknowledging pass of the effect
      and then a refetch. */
  lemma DeleteThenRefetch(s: State)
    ensures Delete(s, true, Ok(())).state.successDelete
    ensures EffectActions(Delete(s, true, Ok(())).state) == [DeleteReset]
    ensures var s2 := Reduce(Delete(s, true, Ok(())).state, DeleteReset);
            !s2.successDelete && !s2.loadingDelete && EffectActions(s2) == [FetchRequest]
            && Reduce(s2, FetchRequest).loading
  {
  }

  /** The two admin lists differ on DELETE_FAIL alone: from the same flags,
      the product list clears `successDelete` and the order list keeps it;
      both clear `loadingDelete`. */
  lemma {:induction false} DeleteFailDiffers(s: State, p: ProductListScreen.State)
    requires s.loadingDelete == p.loadingDelete && s.successDelete == p.successDelete
    ensures Reduce(s, DeleteFail).successDelete == s.successDelete
    ensures !ProductListScreen.Reduce(p, DeleteFail).successDelete
    ensures !Reduce(s, DeleteFail).loadingDelete && !ProductListScreen.Reduce(p, DeleteFail).loadingDelete
    ensures s.successDelete ==> Reduce(s, DeleteFail).successDelete != ProductListScreen.Reduce(p, DeleteFail).successDelete
  {
  }

  /** A table row: id, user, date, paid and delivered cells. */
  datatype Row = Row(id: string, user: string, date: string, paid: string, delivered: string)

  function RowOf(o: Order): (r: Row)
    ensures r.id == o.id
    ensures r.user == OrderCells.UserCell(o) && r.date == OrderCells.DateCell(o)
    ensures r.paid == OrderCells.PaidCell(o) && r.delivered == OrderCells.DeliveredCell(o)
  {
    Row(o.id, OrderCells.UserCell(o), OrderCells.DateCell(o), OrderCells.PaidCell(o), OrderCells.DeliveredCell(o))
  }

  /** One row per order, in the server's order. */
  function Rows(orders: seq<Order>): (rows: seq<Row>)
    ensures |rows| == |orders|
    ensures forall i :: 0 <= i < |orders| ==> rows[i] == RowOf(orders[i])
  {
    seq(|orders|, i requires 0 <= i < |orders| => RowOf(orders[i]))
  }

  /** An order whose user account is gone is listed, under 'DELETED USER'. */
  lemma DeletedUserStillListed(orders: seq<Order>, i: nat)
    requires i < |orders| && orders[i].user.None?
    ensures Rows(orders)[i].user == OrderCells.DeletedUser && Rows(orders)[i].id == orders[i].id
  {
  }
}

=== FILE: order_screen.dfy ===
/** The order detail screen: its reducer with one-shot pay and deliver flags,
    the effect that decides between refetching the order and loading the
    payment widget, the pay and deliver handlers, and which controls show. */
module OrderScreen {
  import opened Domain
  import opened Actions

  /** `loadingDeliver` and `successDeliver` start undefined; false here. */
  datatype State = State(
    loading: bool,
    order: Option<Order>,
    error: string,
    successPay: bool,
    loadingPay: bool,
    loadingDeliver: bool,
    successDeliver: bool)

  const Initial := State(true, None, "", false, false, false, false)

  predicate Handles(a: Action<Order>) {
    || a.FetchRequest? || a.FetchSuccess? || a.FetchFail?
    || a.PayRequest? || a.PaySuccess? || a.PayFail? || a.PayReset?
    || a.DeliverRequest? || a.DeliverSuccess? || a.DeliverFail? || a.DeliverReset?
  }

  function Reduce(s: State, a: Action<Order>): (r: State)
    ensures !Handles(a) ==> r == s
    // only a fetch success replaces the order; the pay and deliver payloads are dropped
    ensures r.order == (if a.FetchSuccess? then Some(a.payload) else s.order)
    ensures r.loading <==> a.FetchRequest? || (s.loading && !a.FetchSuccess? && !a.FetchFail?)
    ensures r.error == (if a.FetchRequest? || a.FetchSuccess? then "" else if a.FetchFail? then a.error else s.error)
    ensures r.successPay <==> a.PaySuccess? || (s.successPay && !a.PayReset?)
    ensures r.loadingPay <==> a.PayRequest? || (s.loadingPay && !a.PaySuccess? && !a.PayFail? && !a.PayReset?)
    ensures r.successDeliver <==> a.DeliverSuccess? || (s.successDeliver && !a.DeliverReset?)
    ensures r.loadingDeliver <==> a.DeliverRequest? || (s.loadingDeliver && !a.DeliverSuccess? && !a.DeliverFail? && !a.DeliverReset?)
  {
    match a
    case FetchRequest => s.(loading := true, error := "")
    case FetchSuccess(o) => s.(loading := false, order := Some(o), error := "")
    case FetchFail(e) => s.(loading := false, error := e)
    case PayRequest => s.(loadingPay := true)
    case PaySuccess(_) => s.(loadingPay := false, successPay := true)
    case PayFail(_) => s.(loadingPay := false)
    case PayReset => s.(loadingPay := false, successPay := false)
    case DeliverRequest => s.(loadingDeliver := true)
    case DeliverSuccess(_) => s.(loadingDeliver := false, successDeliver := true)
    case DeliverFail => s.(loadingDeliver := false)
    case DeliverReset => s.(loadingDeliver := false, successDeliver := false)
    case _ => s
  }

  /** `order._id` is truthy. */
  predicate HasId(o: Option<Order>) {
    o.Some? && o.value.id != ""
  }

  /** What one run of the screen's effect does. */
  datatype Plan =
    | GoToLogin
    /** Fetch the order; `dispatched` are the actions sent synchronously
        in this pass (the fetch's own result arrives later). */
    | Refetch(dispatched: seq<Action<Order>>)
    | LoadPayPal

  function ResetActions(s: State): seq<Action<Order>> {
    (if s.successPay then [PayReset] else []) + (if s.successDeliver then [DeliverReset] else [])
  }

  /** The effect for route id `routeId`. */
  function EffectPlan(st: ClientState, s: State, routeId: string): (p: Plan)
    ensures p.GoToLogin? <==> st.userInfo.None?
    ensures st.userInfo.Some? ==>
      (p.LoadPayPal? <==> HasId(s.order) && s.order.value.id == routeId && !s.successPay && !s.successDeliver)
    ensures p.Refetch? ==> |p.dispatched| >= 1 && p.dispatched[0] == FetchRequest
    ensures p.Refetch? ==> (PayReset in p.dispatched <==> s.successPay)
    ensures p.Refetch? ==> (DeliverReset in p.dispatched <==> s.successDeliver)
  {
    if st.userInfo.None? then GoToLogin
    else if !HasId(s.order) || s.successPay || s.successDeliver || (HasId(s.order) && s.order.value.id != routeId) then
      Refetch([FetchRequest] + ResetActions(s))
    else LoadPayPal
  }

  function OnMount(st: ClientState): (m: Mount)
    ensures m.Stay? <==> st.userInfo.Some?
    ensures m.Redirect? ==> m.path == "/login"
  {
    if st.userInfo.None? then Redirect("/login") else Stay
  }

  /** A refetching pass consumes both success flags: after its synchronous
      dispatches the screen is loading, neither flag is set, and the order
      shown so far is kept until the fetch answers. */
  lemma {:induction false} RefetchConsumesFlags(st: ClientState, s: State, routeId: string)
    requires EffectPlan(st, s, routeId).Refetch?
    ensures var r := Run(Reduce, s, EffectPlan(st, s, routeId).dispatched);
      r.loading && !r.successPay && !r.successDeliver && r.order == s.order && r.error == ""
  {
    var s1 := Reduce(s, FetchRequest);
    var resets := ResetActions(s);
    RunAppend(Reduce, s, [FetchRequest], resets);
    assert Run(Reduce, s, [FetchRequest]) == Run(Reduce, s1, []);
    var payPart: seq<Action<Order>> := if s.successPay then [PayReset] else [];
    var deliverPart: seq<Action<Order>> := if s.successDeliver then [DeliverReset] else [];
    RunAppend(Reduce, s1, payPart, deliverPart);
    var s2 := Run(Reduce, s1, payPart);
    if s.successPay {
      assert s2 == Run(Reduce, Reduce(s1, PayReset), []);
    }
    assert !s2.successPay && s2.loading && !s2.successDeliver == !s.successDeliver;
    if s.successDeliver {
      assert Run(Reduce, s2, deliverPart) == Run(Reduce, Reduce(s2, DeliverReset), []);
    }
  }

  /** `onApprove` after the payment widget captured the payment. */
  function Pay(s: State, response: Result<Order>): (h: Handled<State>)
    ensures !h.state.loadingPay
    ensures h.state.successPay <==> response.Ok? || s.successPay
    ensures h.state.order == s.order && h.state.loading == s.loading
    ensures h.state.successDeliver == s.successDeliver && h.state.loadingDeliver == s.loadingDeliver
    ensures response.Ok? ==> h.effects == [ToastSuccess("Order is paid")]
    ensures response.Failed? ==> h.effects == [ToastError(response.error)]
  {
    match response
    case Ok(o) =>
      RunPair(Reduce, s, PayRequest, PaySuccess(o));
      Handled(Run(Reduce, s, [PayRequest, PaySuccess(o)]), [ToastSuccess("Order is paid")])
    case Failed(e) =>
      RunPair(Reduce, s, PayRequest, PayFail(e));
      Handled(Run(Reduce, s, [PayRequest, PayFail(e)]), [ToastError(e)])
  }

  /** `deliverOrderHandler`. */
  function Deliver(s: State, response: Result<Order>): (h: Handled<State>)
    ensures !h.state.loadingDeliver
    ensures h.state.successDeliver <==> response.Ok? || s.successDeliver
    ensures h.state.order == s.order && h.state.loading == s.loading
    ensures h.state.successPay == s.successPay && h.state.loadingPay == s.loadingPay
    ensures response.Ok? ==> h.effects == [ToastSuccess("Order is delivered")]
    ensures response.Failed? ==> h.effects == [ToastError(response.error)]
  {
    match response
    case Ok(o) =>
      RunPair(Reduce, s, DeliverRequest, DeliverSuccess(o));
      Handled(Run(Reduce, s, [DeliverRequest, DeliverSuccess(o)]), [ToastSuccess("Order is delivered")])
    case Failed(e) =>
      RunPair(Reduce, s, DeliverRequest, DeliverFail);
      Handled(Run(Reduce, s, [DeliverRequest, DeliverFail]), [ToastError(e)])
  }

  /** A successful payment makes the next effect pass refetch exactly once:
      the pass resets the flag, and once the refetched order for the same id
      arrives the following pass loads the payment widget instead. */
  lemma {:induction false} PaymentTriggersOneRefetch(st: ClientState, s: State, routeId: string, paid: Order, refreshed: Order)
    requires st.userInfo.Some?
    requires !s.successDeliver
    requires refreshed.id == routeId && routeId != ""
    ensures var afterPay := Pay(s, Ok(paid)).state;
      EffectPlan(st, afterPay, routeId) == Refetch([FetchRequest, PayReset])
    ensures var afterPay := Pay(s, Ok(paid)).state;
      var afterPass := Run(Reduce, afterPay, [FetchRequest, PayReset]);
      EffectPlan(st, Reduce(afterPass, FetchSuccess(refreshed)), routeId) == LoadPayPal
  {
    var afterPay := Pay(s, Ok(paid)).state;
    assert ResetActions(afterPay) == [PayReset];
    RunPair(Reduce, afterPay, FetchRequest, PayReset);
  }

  /** The pay controls show for an unpaid order. */
  function PayControlsShown(o: Order): (shown: bool)
    ensures shown <==> !o.isPaid
  {
    !o.isPaid
  }

  /** The deliver button shows to an admin for a paid, undelivered order. */
  function DeliverButtonShown(viewer: UserInfo, o: Order): (shown: bool)
    ensures shown <==> viewer.isAdmin && o.isPaid && !o.isDelivered
  {
    viewer.isAdmin && o.isPaid && !o.isDelivered
  }

  /** Delivery is only offered once paid, so the two never show together,
      and a non-admin never sees the deliver button. */
  lemma PayAndDeliverExclusive(viewer: UserInfo, o: Order)
    ensures !(PayControlsShown(o) && DeliverButtonShown(viewer, o))
    ensures !viewer.isAdmin ==> !DeliverButtonShown(viewer, o)
  {
  }
}

=== FILE: payment_method_screen.dfy ===
/** The payment-method screen: the shipping gate, the default selection, the
    two offered methods and the submit handler. */
module PaymentMethodScreen {
  import opened Domain

  const PaymentMethodKey := "paymentMethod"

  /** The two radio buttons and the value each one selects. */
  datatype Method = PayPal | Stripe {
    function Name(): string {
      match this
      case PayPal => "PayPal"
      case Stripe => "Stripe"
    }
  }

  /** Only the address field of the saved shipping address is checked. */
  function OnMount(st: ClientState): (m: Mount)
    ensures m.Stay? <==> Truthy(st.cart.shippingAddress.address)
    ensures m.Redirect? ==> m.path == "/shipping"
  {
    if !Truthy(st.cart.shippingAddress.address) then Redirect("/shipping") else Stay
  }

  /** The saved method, or 'PayPal' when none was saved. */
  function InitialSelection(saved: Option<string>): (selection: string)
    ensures selection != ""
    ensures Truthy(saved) ==> selection == saved.value
    ensures !Truthy(saved) ==> selection == Method.PayPal.Name()
  {
    OrElse(saved, "PayPal")
  }

  /** A radio's `onChange` sets the selection to that radio's value. */
  function Select(m: Method): (selection: string)
    ensures selection == "PayPal" || selection == "Stripe"
    ensures Checked(selection, m)
  {
    m.Name()
  }

  /** Whether radio `m` shows as checked; only an offered name checks one. */
  function Checked(selection: string, m: Method): (c: bool)
    ensures c ==> selection == "PayPal" || selection == "Stripe"
  {
    selection == m.Name()
  }

  /** At most one radio is checked, and none when the saved method is
      neither of the offered two. */
  lemma AtMostOneChecked(selection: string, m1: Method, m2: Method)
    ensures Checked(selection, m1) && Checked(selection, m2) ==> m1 == m2
    ensures selection != "PayPal" && selection != "Stripe" ==> !Checked(selection, m1)
  {
  }

  function Submit(selection: string): (effects: seq<Effect>)
    ensures |effects| == 3
    ensures effects[0] == Dispatch(SavePaymentMethod(selection))
    ensures effects[1] == StorageSet(PaymentMethodKey, StoredText(selection))
    ensures effects[2] == Navigate("/placeorder")
  {
    [
      Dispatch(SavePaymentMethod(selection)),
      StorageSet(PaymentMethodKey, StoredText(selection)),
      Navigate("/placeorder")
    ]
  }
}

=== FILE: place_order_screen.dfy ===
/** The place-order screen: the payment-method gate, the priced order request,
    the place-order button and the outcome of placing the order. */
module PlaceOrderScreen {
  import opened Domain
  import opened Actions
  import Pricing

  const CartItemsKey := "cartItems"

  datatype State = State(loading: bool)

  const Initial := State(false)

  function Reduce(s: State, a: Action<()>): (r: State)
    ensures a.CreateRequest? ==> r.loading
    ensures a.CreateSuccess? || a.CreateFail? ==> !r.loading
    ensures !(a.CreateRequest? || a.CreateSuccess? || a.CreateFail?) ==> r == s
  {
    match a
    case CreateRequest => s.(loading := true)
    case CreateSuccess => s.(loading := false)
    case CreateFail => s.(loading := false)
    case _ => s
  }

  /** Only the payment method is checked, whatever the cart holds. */
  function OnMount(st: ClientState): (m: Mount)
    ensures m.Stay? <==> Truthy(st.cart.paymentMethod)
    ensures m.Redirect? ==> m.path == "/payment"
  {
    if !Truthy(st.cart.paymentMethod) then Redirect("/payment") else Stay
  }

  function ButtonDisabled(cart: Cart): (disabled: bool)
    ensures disabled <==> |cart.cartItems| == 0
  {
    |cart.cartItems| == 0
  }

  /** The body posted to create the order: the cart as it stands and its
      price summary. */
  datatype OrderRequest = OrderRequest(
    orderItems: seq<CartItem>,
    shippingAddress: SavedAddress,
    paymentMethod: Option<string>,
    prices: Pricing.PriceSummary)

  function Request(cart: Cart): (req: OrderRequest)
    ensures req.orderItems == cart.cartItems
    ensures req.shippingAddress == cart.shippingAddress && req.paymentMethod == cart.paymentMethod
    ensures req.prices.itemsPrice == Pricing.Subtotal(cart.cartItems)
    ensures req.prices.shippingPrice == 0 <==> req.prices.itemsPrice > Pricing.FreeShippingOver
    ensures req.prices.shippingPrice == 0 || req.prices.shippingPrice == Pricing.FlatShipping
    ensures -100 <= 2 * (Pricing.TaxPercent * req.prices.itemsPrice - 100 * req.prices.taxPrice) < 100
    ensures req.prices.totalPrice == req.prices.itemsPrice + req.prices.shippingPrice + req.prices.taxPrice
  {
    OrderRequest(cart.cartItems, cart.shippingAddress, cart.paymentMethod, Pricing.Summary(cart.cartItems))
  }

  /** The actions `placeOrderHandler` dispatches to the screen's reducer. */
  function LocalActions(response: Result<string>): seq<Action<()>> {
    if response.Ok? then [CreateRequest, CreateSuccess] else [CreateRequest, CreateFail]
  }

  /** `placeOrderHandler`, given the id of the created order or the error. */
  function PlaceOrder(s: State, response: Result<string>): (h: Handled<State>)
    ensures !h.state.loading
    ensures response.Ok? ==> h.effects == [Dispatch(CartClear), StorageRemove(CartItemsKey), Navigate("/order/" + response.value)]
    ensures response.Failed? ==> h.effects == [ToastError(response.error)]
    ensures response.Failed? ==> OnlyNotifies(h.effects) && !Dispatches(h.effects)
  {
    RunPair(Reduce, s, CreateRequest, if response.Ok? then CreateSuccess else CreateFail);
    var state := Run(Reduce, s, LocalActions(response));
    match response
    case Ok(id) => Handled(state, [Dispatch(CartClear), StorageRemove(CartItemsKey), Navigate("/order/" + id)])
    case Failed(e) =>
      var effects := [ToastError(e)];
      assert forall i :: 0 <= i < |effects| ==> !effects[i].Dispatch?;
      Handled(state, effects)
  }

  /** The cart is cleared exactly once, and only when the order was created. */
  lemma {:induction false} CartClearedOnlyOnSuccess(s: State, response: Result<string>)
    ensures Dispatches(PlaceOrder(s, response).effects) <==> response.Ok?
    ensures response.Ok? ==> |PlaceOrder(s, response).effects| == 3
    ensures forall i :: 0 <= i < |PlaceOrder(s, response).effects| ==>
              (PlaceOrder(s, response).effects[i] == Dispatch(CartClear) <==> response.Ok? && i == 0)
  {
    var effects := PlaceOrder(s, response).effects;
    if response.Ok? {
      assert effects[0].Dispatch?;
    }
  }
}

=== FILE: pricing.dfy ===
/** The order summary of the place-order screen: items subtotal, flat shipping
    under a free-shipping threshold, 15% tax rounded half up to the cent, and a
    total that is the plain sum of the three. All amounts are integer cents. */
module Pricing {
  import opened Domain

  /** Orders whose items subtotal is strictly above this ship free. */
  const FreeShippingOver: int := 10000
  const FlatShipping: int := 1000
  const TaxPercent: int := 15

  datatype PriceSummary = PriceSummary(itemsPrice: int, shippingPrice: int, taxPrice: int, totalPrice: int)

  /** Reference definition: the sum of quantity × price over the lines. */
  function Subtotal(items: seq<CartItem>): int
    decreases |items|
  {
    if |items| == 0 then 0 else items[0].quantity * items[0].product.price + Subtotal(items[1..])
  }

  lemma {:induction false} SubtotalAppend(a: seq<CartItem>, b: seq<CartItem>)
    ensures Subtotal(a + b) == Subtotal(a) + Subtotal(b)
    decreases |a|
  {
    if |a| == 0 {
      assert a + b == b;
    } else {
      assert (a + b)[1..] == a[1..] + b;
      SubtotalAppend(a[1..], b);
    }
  }

  /** The order of the cart lines does not affect the subtotal. */
  lemma {:induction false} SubtotalSwap(a: seq<CartItem>, b: seq<CartItem>)
    ensures Subtotal(a + b) == Subtotal(b + a)
  {
    SubtotalAppend(a, b);
    SubtotalAppend(b, a);
  }

  lemma {:induction false} SubtotalNonNegative(items: seq<CartItem>)
    requires forall i :: 0 <= i < |items| ==> items[i].quantity >= 0
    ensures Subtotal(items) >= 0
    decreases |items|
  {
    if |items| > 0 {
      SubtotalNonNegative(items[1..]);
    }
  }

  /** `cartItems.reduce((a, c) => a + c.quantity * c.price, 0)`: a left fold. */
  method ItemsPrice(items: seq<CartItem>) returns (total: int)
    ensures total == Subtotal(items)
  {
    total := 0;
    var i := 0;
    while i < |items|
      invariant 0 <= i <= |items|
      invariant total == Subtotal(items[..i])
    {
      SubtotalAppend(items[..i], [items[i]]);
      assert items[..i + 1] == items[..i] + [items[i]];
      total := total + items[i].quantity * items[i].product.price;
      i := i + 1;
    }
    assert items[..i] == items;
  }

  /** `Math.round(num / den)` for a positive denominator: the nearest integer,
      halves rounded up (towards positive infinity, as `Math.round` does). */
  function RoundHalfUp(num: int, den: int): (r: int)
    requires den > 0
    ensures -den <= 2 * (num - den * r) < den
  {
    (2 * num + den) / (2 * den)
  }

  lemma MulAtLeast(d: int, k: int)
    requires d > 0 && k >= 1
    ensures d * k >= d
  {
    assert d * k == d * (k - 1) + d;
  }

  /** Exactly one integer lies within half a unit of num/den with ties upward. */
  lemma RoundHalfUpUnique(num: int, den: int, r: int)
    requires den > 0
    requires -den <= 2 * (num - den * r) < den
    ensures r == RoundHalfUp(num, den)
  {
    var q := RoundHalfUp(num, den);
    assert den * q - den * r == den * (q - r);
    if q > r {
      MulAtLeast(den, q - r);
    } else if r > q {
      assert den * r - den * q == den * (r - q);
      MulAtLeast(den, r - q);
    }
  }

  lemma RoundHalfUpMonotone(a: int, b: int, den: int)
    requires den > 0 && a <= b
    ensures RoundHalfUp(a, den) <= RoundHalfUp(b, den)
  {
    var ra, rb := RoundHalfUp(a, den), RoundHalfUp(b, den);
    if ra > rb {
      assert den * ra - den * rb == den * (ra - rb);
      MulAtLeast(den, ra - rb);
    }
  }

  function ShippingPrice(itemsPrice: int): (r: int)
    ensures r == 0 <==> itemsPrice > FreeShippingOver
    ensures r == 0 || r == FlatShipping
  {
    if itemsPrice > FreeShippingOver then 0 else FlatShipping
  }

  /** 15% of the subtotal, rounded to the cent. */
  function TaxPrice(itemsPrice: int): (r: int)
    ensures -100 <= 2 * (TaxPercent * itemsPrice - 100 * r) < 100
    ensures itemsPrice >= 0 ==> r >= 0
  {
    RoundHalfUp(TaxPercent * itemsPrice, 100)
  }

  function SummaryFor(itemsPrice: int): (s: PriceSummary)
    ensures s.itemsPrice == itemsPrice
    ensures s.shippingPrice == 0 <==> itemsPrice > FreeShippingOver
    ensures s.shippingPrice == 0 || s.shippingPrice == FlatShipping
    ensures -100 <= 2 * (TaxPercent * itemsPrice - 100 * s.taxPrice) < 100
    ensures s.totalPrice == s.itemsPrice + s.shippingPrice + s.taxPrice
  {
    var shipping := ShippingPrice(itemsPrice);
    var tax := TaxPrice(itemsPrice);
    PriceSummary(itemsPrice, shipping, tax, itemsPrice + shipping + tax)
  }

  /** The summary the place-order screen shows for a cart. */
  function Summary(items: seq<CartItem>): (s: PriceSummary)
    ensures s.itemsPrice == Subtotal(items)
    ensures s.shippingPrice == 0 <==> Subtotal(items) > FreeShippingOver
    ensures s.shippingPrice == 0 || s.shippingPrice == FlatShipping
    ensures -100 <= 2 * (TaxPercent * s.itemsPrice - 100 * s.taxPrice) < 100
    ensures s.totalPrice == s.itemsPrice + s.shippingPrice + s.taxPrice
  {
    SummaryFor(Subtotal(items))
  }

  /** 150.00 of goods: free shipping, 22.50 tax, 172.50 in all. */
  lemma ExampleOneLine(p: Product)
    requires p.price == 15000
    ensures Summary([CartItem(p, 1)]) == PriceSummary(15000, 0, 2250, 17250)
  {
    assert Subtotal([CartItem(p, 1)]) == 15000;
  }

  /** 2 × 30.00 + 1 × 10.00: shipping is charged, 10.50 tax, 90.50 in all. */
  lemma ExampleTwoLines(p: Product, q: Product)
    requires p.price == 3000 && q.price == 1000
    ensures Summary([CartItem(p, 2), CartItem(q, 1)]) == PriceSummary(7000, 1000, 1050, 9050)
  {
    var items := [CartItem(p, 2), CartItem(q, 1)];
    assert items[1..] == [CartItem(q, 1)];
    assert items[1..][1..] == [];
    assert Subtotal(items[1..]) == 1000;
    assert Subtotal(items) == 7000;
  }

  /** A subtotal of exactly 100.00 still pays shipping. */
  lemma ThresholdIsStrict()
    ensures SummaryFor(10000) == PriceSummary(10000, 1000, 1500, 12500)
    ensures SummaryFor(10001).shippingPrice == 0
  {
  }

  /** The total never decreases as the subtotal grows, on either side of the
      free-shipping threshold. */
  lemma TotalMonotoneOnEachSide(a: int, b: int)
    requires a <= b
    requires b <= FreeShippingOver || a > FreeShippingOver
    ensures SummaryFor(a).totalPrice <= SummaryFor(b).totalPrice
  {
    RoundHalfUpMonotone(TaxPercent * a, TaxPercent * b, 100);
  }

  /** Crossing the threshold drops the total: 100.01 of goods costs less than 100.00. */
  lemma TotalDropsAcrossThreshold()
    ensures SummaryFor(10001).totalPrice < SummaryFor(10000).totalPrice
  {
  }
}

=== FILE: product_edit_screen.dfy ===
/** The admin product editor: its reducer, the form filled from the fetched
    product, the update request body and the outcome of submitting it. */
module ProductEditScreen {
  import opened Domain
  import opened Actions

  const UpdatedMessage := "Product updated successfully"
  const ListPath := "/admin/products"

  /** `loadingUpdate` starts undefined; false here. */
  datatype State = State(loading: bool, error: string, loadingUpdate: bool)

  const Initial := State(true, "", false)

  predicate Handles(a: Action<()>) {
    || a.FetchRequest? || a.FetchSuccess? || a.FetchFail?
    || a.UpdateRequest? || a.UpdateSuccess? || a.UpdateFail?
  }

  /** FETCH_SUCCESS carries nothing: the form fields are set separately. */
  function Reduce(s: State, a: Action<()>): (r: State)
    ensures !Handles(a) ==> r == s
    ensures r.loading <==> a.FetchRequest? || (s.loading && !a.FetchSuccess? && !a.FetchFail?)
    ensures r.error == (if a.FetchFail? then a.error else s.error)
    ensures r.loadingUpdate <==> a.UpdateRequest? || (s.loadingUpdate && !a.UpdateSuccess? && !a.UpdateFail?)
  {
    match a
    case FetchRequest => s.(loading := true)
    case FetchSuccess(_) => s.(loading := false)
    case FetchFail(e) => s.(loading := false, error := e)
    case UpdateRequest => s.(loadingUpdate := true)
    case UpdateSuccess => s.(loadingUpdate := false)
    case UpdateFail => s.(loadingUpdate := false)
    case _ => s
  }

  /** The eight edit fields; price and stock hold the fetched numbers until
      edited, and text afterwards. */
  datatype Form = Form(
    name: string, slug: string, price: Value, image: string,
    category: string, countInStock: Value, brand: string, description: string)

  const EmptyForm := Form("", "", Text(""), "", "", Text(""), "", "")

  /** The form after a successful fetch of `p`. */
  function FormOf(p: Product): (f: Form)
    ensures forall productId :: Decode(Payload(productId, f)) == Some(p.(id := productId))
  {
    Form(p.name, p.slug, Num(p.price), p.image, p.category, Num(p.countInStock), p.brand, p.description)
  }

  datatype Loaded = Loaded(state: State, form: Form)

  /** The mount fetch: on success the form is filled from the product, on
      failure the form keeps its (empty) fields and the error is stored. */
  function Fetch(s: State, form: Form, response: Result<Product>): (l: Loaded)
    ensures !l.state.loading && l.state.loadingUpdate == s.loadingUpdate
    ensures response.Ok? ==> l.form == FormOf(response.value) && l.state.error == s.error
    ensures response.Failed? ==> l.form == form && l.state.error == response.error
  {
    RunPair(Reduce, s, FetchRequest, if response.Ok? then FetchSuccess(()) else FetchFail(response.error));
    match response
    case Ok(p) => Loaded(Run(Reduce, s, [FetchRequest, FetchSuccess(())]), FormOf(p))
    case Failed(e) => Loaded(Run(Reduce, s, [FetchRequest, FetchFail(e)]), form)
  }

  /** The body of the PUT request. */
  datatype UpdatePayload = UpdatePayload(
    id: string, name: string, slug: string, price: Value, image: string,
    category: string, brand: string, countInStock: Value, description: string)

  /** `_id` is the route's product id; every other field is the form's. */
  function Payload(productId: string, f: Form): (b: UpdatePayload)
    ensures b.id == productId
    ensures b.name == f.name && b.slug == f.slug && b.image == f.image && b.category == f.category
    ensures b.brand == f.brand && b.description == f.description
    ensures b.price == f.price && b.countInStock == f.countInStock
  {
    UpdatePayload(productId, f.name, f.slug, f.price, f.image, f.category, f.brand, f.countInStock, f.description)
  }

  /** Reading a payload back as a product, when its price and stock are
      numbers and the price is not negative. */
  function Decode(b: UpdatePayload): Option<Product> {
    match (NumberOf(b.price), NumberOf(b.countInStock))
    case (Some(price), Some(count)) =>
      if price >= 0 then Some(Product(b.id, b.name, b.slug, b.image, b.brand, b.category, b.description, price, count))
      else None
    case _ => None
  }

  /** Saving the form unedited sends back the fetched product, under the
      route's id. */
  lemma UneditedFormResendsProduct(productId: string, p: Product)
    ensures Decode(Payload(productId, FormOf(p))) == Some(p.(id := productId))
  {
  }

  function ButtonDisabled(s: State): (disabled: bool)
    ensures disabled <==> s.loadingUpdate
  {
    s.loadingUpdate
  }

  /** `submitHandler`, given the server's answer to the update. */
  function Submit(s: State, response: Result<()>): (h: Handled<State>)
    ensures h.state == s.(loadingUpdate := false)
    ensures response.Ok? ==> h.effects == [ToastSuccess(UpdatedMessage), Navigate(ListPath)]
    ensures response.Failed? ==> h.effects == [ToastError(response.error)]
    ensures NavigatesTo(h.effects, ListPath) <==> response.Ok?
  {
    RunPair(Reduce, s, UpdateRequest, if response.Ok? then UpdateSuccess else UpdateFail);
    match response
    case Ok(_) =>
      var effects := [ToastSuccess(UpdatedMessage), Navigate(ListPath)];
      assert effects[1] == Navigate(ListPath);
      Handled(Run(Reduce, s, [UpdateRequest, UpdateSuccess]), effects)
    case Failed(e) => Handled(Run(Reduce, s, [UpdateRequest, UpdateFail]), [ToastError(e)])
  }

  /** The button is disabled while the update is in flight and enabled again
      once it settles, whichever way. */
  lemma ButtonDisabledWhileUpdating(s: State, response: Result<()>)
    ensures ButtonDisabled(Reduce(s, UpdateRequest))
    ensures !ButtonDisabled(Submit(s, response).state)
  {
  }
}

=== FILE: product_list_screen.dfy ===
/** The admin product list: its reducer with create and delete flags, the
    effect that either acknowledges a finished delete or refetches, the create
    and delete handlers behind a confirmation, and the page links. */
module ProductListScreen {
  import opened Domain
  import opened Actions

  const CreatedMessage := "product created successfully"
  const DeletedMessage := "product deleted successfully"

  /** The body of a successful list fetch. */
  datatype ProductPage = ProductPage(products: seq<Product>, page: Value, pages: nat)

  /** Only `loading` and `error` are initialised; the rest start absent
      (`None`) or undefined (false). */
  datatype State = State(
    loading: bool,
    error: string,
    products: Option<seq<Product>>,
    page: Option<Value>,
    pages: Option<nat>,
    loadingCreate: bool,
    loadingDelete: bool,
    successDelete: bool)

  const Initial := State(true, "", None, None, None, false, false, false)

  predicate Handles(a: Action<ProductPage>) {
    || a.FetchRequest? || a.FetchSuccess? || a.FetchFail?
    || a.CreateRequest? || a.CreateSuccess? || a.CreateFail?
    || a.DeleteRequest? || a.DeleteSuccess? || a.DeleteFail? || a.DeleteReset?
  }

  function Reduce(s: State, a: Action<ProductPage>): (r: State)
    ensures !Handles(a) ==> r == s
    ensures r.loading <==> a.FetchRequest? || (s.loading && !a.FetchSuccess? && !a.FetchFail?)
    ensures r.error == (if a.FetchFail? then a.error else s.error)
    ensures a.FetchSuccess? ==>
      r.products == Some(a.payload.products) && r.page == Some(a.payload.page) && r.pages == Some(a.payload.pages)
    ensures !a.FetchSuccess? ==> r.products == s.products && r.page == s.page && r.pages == s.pages
    ensures r.loadingCreate <==> a.CreateRequest? || (s.loadingCreate && !a.CreateSuccess? && !a.CreateFail?)
    ensures r.loadingDelete <==> a.DeleteRequest? || (s.loadingDelete && !a.DeleteSuccess? && !a.DeleteFail? && !a.DeleteReset?)
    // a failed delete clears the success flag as well
    ensures r.successDelete <==> a.DeleteSuccess? || (s.successDelete && !a.DeleteRequest? && !a.DeleteFail? && !a.DeleteReset?)
  {
    match a
    case FetchRequest => s.(loading := true)
    case FetchSuccess(d) => s.(products := Some(d.products), page := Some(d.page), pages := Some(d.pages), loading := false)
    case FetchFail(e) => s.(loading := false, error := e)
    case CreateRequest => s.(loadingCreate := true)
    case CreateSuccess => s.(loadingCreate := false)
    case CreateFail => s.(loadingCreate := false)
    case DeleteRequest => s.(loadingDelete := true, successDelete := false)
    case DeleteSuccess => s.(loadingDelete := false, successDelete := true)
    case DeleteFail => s.(loadingDelete := false, successDelete := false)
    case DeleteReset => s.(loadingDelete := false, successDelete := false)
    case _ => s
  }

  /** The actions one run of the screen's effect dispatches synchronously: a
      finished delete is acknowledged, otherwise the list is fetched (its
      result arrives later). */
  function EffectActions(s: State): (acts: seq<Action<ProductPage>>)
    ensures |acts| == 1
    ensures acts[0].DeleteReset? <==> s.successDelete
    ensures acts[0].FetchRequest? <==> !s.successDelete
  {
    if s.successDelete then [DeleteReset] else [FetchRequest]
  }

  /** `createHandler` with the answer to the confirmation and the id of the
      created product or the error; `failureToast` maps the caught error to
      the toast its catch block shows. */
  function CreateWith(s: State, confirmed: bool, response: Result<string>, failureToast: string -> Effect): (h: Handled<State>)
    ensures !confirmed ==> h == Handled(s, [])
    ensures confirmed ==> h.state == s.(loadingCreate := false)
    ensures confirmed && response.Ok? ==>
      h.effects == [ToastSuccess(CreatedMessage), Navigate("/admin/product/" + response.value)]
    ensures confirmed && response.Failed? ==> h.effects == [failureToast(response.error)]
  {
    if !confirmed then Handled(s, [])
    else
      RunPair(Reduce, s, CreateRequest, if response.Ok? then CreateSuccess else CreateFail);
      match response
      case Ok(id) =>
        Handled(Run(Reduce, s, [CreateRequest, CreateSuccess]), [ToastSuccess(CreatedMessage), Navigate("/admin/product/" + id)])
      case Failed(e) =>
        Handled(Run(Reduce, s, [CreateRequest, CreateFail]), [failureToast(e)])
  }

  /** As written: the catch block toasts `getError(error)`, the screen's own
      fetch error, not the exception it caught. */
  function CreateAsWritten(s: State, confirmed: bool, response: Result<string>): (h: Handled<State>)
    ensures confirmed && response.Failed? ==> h.effects == [PageErrorToast(s.error)]
    ensures confirmed ==> !h.state.loadingCreate
  {
    CreateWith(s, confirmed, response, _ => PageErrorToast(s.error))
  }

  /** Corrected: a failed create toasts the error it caught. */
  function Create(s: State, confirmed: bool, response: Result<string>): (h: Handled<State>)
    ensures !confirmed ==> h == Handled(s, [])
    ensures confirmed ==> h.state == s.(loadingCreate := false)
    ensures confirmed && response.Ok? ==>
      h.effects == [ToastSuccess(CreatedMessage), Navigate("/admin/product/" + response.value)]
    ensures confirmed && response.Failed? ==> h.effects == [ToastError(response.error)]
  {
    CreateWith(s, confirmed, response, e => ToastError(e))
  }

  /** `deleteHandler`: note that it dispatches no DELETE_REQUEST, so the
      request starts without setting `loadingDelete`. */
  function DeleteWith(s: State, confirmed: bool, response: Result<()>, failureToast: string -> Effect): (h: Handled<State>)
    ensures !confirmed ==> h == Handled(s, [])
    ensures confirmed ==> h.state == s.(loadingDelete := false, successDelete := response.Ok?)
    ensures confirmed && response.Ok? ==> h.effects == [ToastSuccess(DeletedMessage)]
    ensures confirmed && response.Failed? ==> h.effects == [failureToast(response.error)]
  {
    if !confirmed then Handled(s, [])
    else
      RunSingle(Reduce, s, if response.Ok? then DeleteSuccess else DeleteFail);
      match response
      case Ok(_) => Handled(Run(Reduce, s, [DeleteSuccess]), [ToastSuccess(DeletedMessage)])
      case Failed(e) => Handled(Run(Reduce, s, [DeleteFail]), [failureToast(e)])
  }

  /** As written: the catch block toasts `getError(error)`. */
  function DeleteAsWritten(s: State, confirmed: bool, response: Result<()>): (h: Handled<State>)
    ensures confirmed && response.Failed? ==> h.effects == [PageErrorToast(s.error)]
    ensures confirmed ==> h.state == s.(loadingDelete := false, successDelete := response.Ok?)
  {
    DeleteWith(s, confirmed, response, _ => PageErrorToast(s.error))
  }

  /** Corrected: a failed delete toasts the error it caught. */
  function Delete(s: State, confirmed: bool, response: Result<()>): (h: Handled<State>)
    ensures !confirmed ==> h == Handled(s, [])
    ensures confirmed ==> h.state == s.(loadingDelete := false, successDelete := response.Ok?)
    ensures confirmed && response.Ok? ==> h.effects == [ToastSuccess(DeletedMessage)]
    ensures confirmed && response.Failed? ==> h.effects == [ToastError(response.error)]
  {
    DeleteWith(s, confirmed, response, e => ToastError(e))
  }

  /** The delete buttons are rendered only with the product table, that is
      when nothing is loading and there is no fetch error; so the as-written
      toast of a failed delete always carries the empty error, whatever the
      server answered. The corrected handler shows the server's error. */
  lemma DeleteFailureHidesServerError(s: State, e: string)
    requires PanelOf(s.loading, s.error).ContentPanel?
    ensures DeleteAsWritten(s, true, Failed(e)).effects == [PageErrorToast("")]
    ensures Delete(s, true, Failed(e)).effects == [ToastError(e)]
  {
  }

  /** The create button sits in the page header and is shown over every
      panel. Pressed over the product table, a failed create toasts the empty
      error, as a failed delete does. */
  lemma CreateFailureHidesServerError(s: State, e: string)
    requires PanelOf(s.loading, s.error).ContentPanel?
    ensures CreateAsWritten(s, true, Failed(e)).effects == [PageErrorToast("")]
    ensures Create(s, true, Failed(e)).effects == [ToastError(e)]
  {
  }

  /** Pressed over the error panel, a failed create repeats the fetch error
      already on screen, whatever the server answered to the create. */
  lemma CreateFailureRepeatsPageError(s: State, e: string)
    requires PanelOf(s.loading, s.error).ErrorPanel?
    ensures CreateAsWritten(s, true, Failed(e)).effects == [PageErrorToast(PanelOf(s.loading, s.error).message)]
    ensures Create(s, true, Failed(e)).effects == [ToastError(e)]
  {
  }

  /** A successful delete is followed by one acknowledging pass of the effect
      and then a refetch, and the list goes back to loading. */
  lemma {:induction false} DeleteThenRefetch(s: State)
    ensures Delete(s, true, Ok(())).state.successDelete
    ensures EffectActions(Delete(s, true, Ok(())).state) == [DeleteReset]
    ensures var s2 := Reduce(Delete(s, true, Ok(())).state, DeleteReset);
            !s2.successDelete && !s2.loadingDelete && EffectActions(s2) == [FetchRequest]
            && Reduce(s2, FetchRequest).loading
  {
  }

  /** Every action the screen itself dispatches: all it handles except
      DELETE_REQUEST, which no handler sends. */
  predicate Dispatched(a: Action<ProductPage>) {
    Handles(a) && !a.DeleteRequest?
  }

  /** Hence the delete spinner never shows: from a state without it, no
      sequence of the screen's own actions turns `loadingDelete` on. */
  lemma {:induction false} DeleteSpinnerNeverShows(s: State, acts: seq<Action<ProductPage>>)
    requires !s.loadingDelete
    requires forall i :: 0 <= i < |acts| ==> Dispatched(acts[i])
    ensures !Run(Reduce, s, acts).loadingDelete
    decreases |acts|
  {
    if |acts| > 0 {
      DeleteSpinnerNeverShows(Reduce(s, acts[0]), acts[1..]);
    }
  }

  /** `sp.get('page') || 1`. */
  function CurrentPage(q: Query): (page: Value)
    ensures TruthyValue(page)
    ensures Get(q, "page").None? ==> page == Num(1)
  {
    GetOr(q, "page", Num(1))
  }

  function PageButtons(q: Query, pages: nat): seq<(int, bool)> {
    PageLinks(pages, NumberOf(CurrentPage(q)))
  }

  /** Without a page parameter the first link is the highlighted one. */
  lemma FirstPageByDefault(q: Query, pages: nat)
    requires Get(q, "page").None? && pages >= 1
    ensures PageButtons(q, pages)[0] == (1, true)
    ensures forall i :: 1 <= i < pages ==> !PageButtons(q, pages)[i].1
  {
  }

  /** A page parameter of decimal digits naming an existing page highlights
      exactly that link. */
  lemma {:induction false} DigitPageHighlighted(q: Query, pages: nat, digits: string)
    requires Get(q, "page") == Some(Text(digits))
    requires |digits| > 0 && forall i :: 0 <= i < |digits| ==> IsDigit(digits[i])
    requires 1 <= DecimalValue(digits) <= pages
    ensures forall i :: 0 <= i < pages ==> (PageButtons(q, pages)[i].1 <==> i + 1 == DecimalValue(digits))
  {
    assert CurrentPage(q) == Text(digits);
  }
}

=== FILE: product_screen.dfy ===
/** The product detail screen: its fetch reducer, the add-to-cart button and
    the handler that checks the live stock before adding to the cart. */
module ProductScreen {
  import opened Domain
  import opened Actions

  /** Before the first fetch `product` is an empty array; `None` here. */
  datatype State = State(product: Option<Product>, loading: bool, error: string)

  const Initial := State(None, true, "")

  predicate Handles(a: Action<Product>) {
    a.FetchRequest? || a.FetchSuccess? || a.FetchFail?
  }

  function Reduce(s: State, a: Action<Product>): (r: State)
    ensures !Handles(a) ==> r == s
    ensures r.loading <==> a.FetchRequest? || (s.loading && !a.FetchSuccess? && !a.FetchFail?)
    ensures r.product == (if a.FetchSuccess? then Some(a.payload) else s.product)
    ensures r.error == (if a.FetchFail? then a.error else s.error)
  {
    match a
    case FetchRequest => s.(loading := true)
    case FetchSuccess(p) => s.(product := Some(p), loading := false)
    case FetchFail(e) => s.(loading := false, error := e)
    case _ => s
  }

  /** `cartItems.find(x => x._id === id)`, as the index of the first match. */
  function FindIndex(items: seq<CartItem>, id: string): (k: Option<nat>)
    ensures k.None? <==> forall i :: 0 <= i < |items| ==> items[i].product.id != id
    ensures k.Some? ==> k.value < |items| && items[k.value].product.id == id
    ensures k.Some? ==> forall j :: 0 <= j < k.value ==> items[j].product.id != id
    decreases |items|
  {
    if |items| == 0 then None
    else if items[0].product.id == id then Some(0)
    else match FindIndex(items[1..], id)
      case None => None
      case Some(j) => Some(j + 1)
  }

  /** One more than the quantity already in the cart, or 1 for a new product. */
  function RequestedQuantity(items: seq<CartItem>, p: Product): (q: int)
    ensures (forall i :: 0 <= i < |items| ==> items[i].product.id != p.id) ==> q == 1
    ensures forall i :: 0 <= i < |items| ==>
              (items[i].product.id == p.id && (forall j :: 0 <= j < i ==> items[j].product.id != p.id))
              ==> q == items[i].quantity + 1
  {
    match FindIndex(items, p.id)
    case None => 1
    case Some(k) => items[k].quantity + 1
  }

  const OutOfStockMessage := "Sorry. Product is out of stock"

  /** `addToCartHandler`: `live` is the countInStock of the product as
      fetched again from the server when the button is pressed, or the failed
      request. The request is outside any try/catch, so a failure ends the
      handler with no alert, dispatch or navigation. */
  function AddToCart(items: seq<CartItem>, p: Product, live: Result<int>): (effects: seq<Effect>)
    ensures live.Failed? ==> effects == []
    ensures Dispatches(effects) <==> live.Ok? && live.value >= RequestedQuantity(items, p)
    ensures live.Ok? && !Dispatches(effects) ==> effects == [Alert(OutOfStockMessage)]
    ensures Dispatches(effects) ==> effects == [Dispatch(CartAddItem(CartItem(p, RequestedQuantity(items, p)))), Navigate("/cart")]
  {
    var quantity := RequestedQuantity(items, p);
    match live
    case Failed(_) => []
    case Ok(liveCount) =>
      if liveCount < quantity then [Alert(OutOfStockMessage)]
      else
        var effects := [Dispatch(CartAddItem(CartItem(p, quantity))), Navigate("/cart")];
        assert effects[0].Dispatch?;
        effects
  }

  /** Whatever the cart holds, an add that dispatches had a live stock
      answer and never asks for more than it. */
  lemma AddNeverExceedsStock(items: seq<CartItem>, p: Product, live: Result<int>, i: int)
    requires 0 <= i < |AddToCart(items, p, live)|
    requires AddToCart(items, p, live)[i].Dispatch?
    ensures live.Ok?
    ensures AddToCart(items, p, live)[i].action.CartAddItem?
    ensures AddToCart(items, p, live)[i].action.item.quantity <= live.value
    ensures AddToCart(items, p, live)[i].action.item.product == p
  {
  }

  /** The add-to-cart button is offered only for a product in stock. */
  function AddButtonShown(p: Product): (shown: bool)
    ensures shown <==> p.countInStock > 0
  {
    p.countInStock > 0
  }

  /** Pressing the offered button for a product not yet in the cart, when the
      stock has not changed since the page loaded, adds one unit and opens the
      cart. */
  lemma {:induction false} OfferedButtonAddsNewProduct(items: seq<CartItem>, p: Product)
    requires AddButtonShown(p)
    requires forall i :: 0 <= i < |items| ==> items[i].product.id != p.id
    ensures AddToCart(items, p, Ok(p.countInStock)) == [Dispatch(CartAddItem(CartItem(p, 1))), Navigate("/cart")]
  {
    assert RequestedQuantity(items, p) == 1;
  }

  /** For a product already in the cart the request is the first matching
      line's quantity plus one. */
  lemma {:induction false} ExistingLineIncrements(items: seq<CartItem>, p: Product, k: nat, liveCount: int)
    requires k < |items| && items[k].product.id == p.id
    requires forall j :: 0 <= j < k ==> items[j].product.id != p.id
    requires liveCount > items[k].quantity
    ensures AddToCart(items, p, Ok(liveCount))[0] == Dispatch(CartAddItem(CartItem(p, items[k].quantity + 1)))
  {
    assert RequestedQuantity(items, p) == items[k].quantity + 1;
  }
}

=== FILE: profile_screen.dfy ===
/** The profile screen: its one-flag reducer, the form initialised from the
    signed-in user and the outcome of submitting it. */
module ProfileScreen {
  import opened Domain
  import opened Actions

  const UserInfoKey := "userInfo"
  const UpdatedMessage := "User updated successfully"

  datatype State = State(loadingUpdate: bool)

  const Initial := State(false)

  predicate Handles(a: Action<()>) {
    a.UpdateRequest? || a.UpdateSuccess? || a.UpdateFail?
  }

  function Reduce(s: State, a: Action<()>): (r: State)
    ensures !Handles(a) ==> r == s
    ensures r.loadingUpdate <==> a.UpdateRequest? || (s.loadingUpdate && !a.UpdateSuccess? && !a.UpdateFail?)
  {
    match a
    case UpdateRequest => s.(loadingUpdate := true)
    case UpdateSuccess => s.(loadingUpdate := false)
    case UpdateFail => s.(loadingUpdate := false)
    case _ => s
  }

  datatype Form = Form(name: string, email: string, password: string, confirmPassword: string)

  /** Name and email come from the signed-in user; both passwords start empty. */
  function InitialForm(user: UserInfo): (f: Form)
    ensures f.name == user.name && f.email == user.email
    ensures f.password == "" && f.confirmPassword == ""
  {
    Form(user.name, user.email, "", "")
  }

  /** The body of the PUT request: the confirmation field is not sent. */
  datatype ProfileBody = ProfileBody(name: string, email: string, password: string)

  function Body(f: Form): (b: ProfileBody)
    ensures b.name == f.name && b.email == f.email && b.password == f.password
  {
    ProfileBody(f.name, f.email, f.password)
  }

  /** The effects of a submit once the server has answered. */
  function Outcome(response: Result<UserInfo>): (effects: seq<Effect>)
    ensures response.Ok? ==> (effects ==
      [Dispatch(UserSignin(response.value)), StorageSet(UserInfoKey, StoredUser(response.value)), ToastSuccess(UpdatedMessage)])
    ensures response.Failed? ==> effects == [ToastError(response.error)]
  {
    match response
    case Ok(u) => [Dispatch(UserSignin(u)), StorageSet(UserInfoKey, StoredUser(u)), ToastSuccess(UpdatedMessage)]
    case Failed(e) => [ToastError(e)]
  }

  /** As written: the catch block dispatches FETCH_FAIL (with no payload),
      a tag this reducer does not handle. */
  function SubmitAsWritten(s: State, response: Result<UserInfo>): (h: Handled<State>)
    ensures response.Ok? ==> !h.state.loadingUpdate
    ensures response.Failed? ==> h.state.loadingUpdate
    ensures h.effects == Outcome(response)
  {
    RunPair(Reduce, s, UpdateRequest, if response.Ok? then UpdateSuccess else FetchFail(""));
    if response.Ok? then Handled(Run(Reduce, s, [UpdateRequest, UpdateSuccess]), Outcome(response))
    else Handled(Run(Reduce, s, [UpdateRequest, FetchFail("")]), Outcome(response))
  }

  /** A failed update leaves the screen in its updating state: only a later
      successful submit's UPDATE_SUCCESS clears it, because a later failed
      submit dispatches FETCH_FAIL again and UPDATE_FAIL is never sent. */
  lemma {:induction false} FailedUpdateStaysLoading(s: State, e: string, later: seq<Action<()>>)
    requires forall i :: 0 <= i < |later| ==> !later[i].UpdateSuccess? && !later[i].UpdateFail?
    ensures SubmitAsWritten(s, Failed(e)).state.loadingUpdate
    ensures Run(Reduce, SubmitAsWritten(s, Failed(e)).state, later).loadingUpdate
    decreases |later|
  {
    if |later| > 0 {
      assert Reduce(SubmitAsWritten(s, Failed(e)).state, later[0]).loadingUpdate;
      StaysLoading(Reduce(SubmitAsWritten(s, Failed(e)).state, later[0]), later[1..]);
    }
  }

  lemma {:induction false} StaysLoading(s: State, later: seq<Action<()>>)
    requires s.loadingUpdate
    requires forall i :: 0 <= i < |later| ==> !later[i].UpdateSuccess? && !later[i].UpdateFail?
    ensures Run(Reduce, s, later).loadingUpdate
    decreases |later|
  {
    if |later| > 0 {
      StaysLoading(Reduce(s, later[0]), later[1..]);
    }
  }

  /** Corrected: a failed update dispatches UPDATE_FAIL, so the updating flag
      is cleared whichever way the request ends. */
  function Submit(s: State, response: Result<UserInfo>): (h: Handled<State>)
    ensures !h.state.loadingUpdate
    ensures h.effects == Outcome(response)
    ensures Dispatches(h.effects) <==> response.Ok?
  {
    RunPair(Reduce, s, UpdateRequest, if response.Ok? then UpdateSuccess else UpdateFail);
    var effects := Outcome(response);
    assert response.Ok? ==> effects[0].Dispatch?;
    if response.Ok? then Handled(Run(Reduce, s, [UpdateRequest, UpdateSuccess]), effects)
    else Handled(Run(Reduce, s, [UpdateRequest, UpdateFail]), effects)
  }

  /** The as-written and corrected handlers agree on success and differ
      exactly in the flag left behind by a failure. */
  lemma SubmitVersionsDiffer(s: State, response: Result<UserInfo>)
    ensures SubmitAsWritten(s, response).effects == Submit(s, response).effects
    ensures SubmitAsWritten(s, response).state == Submit(s, response).state <==> response.Ok?
  {
  }

  /** The confirmation field never affects what is sent. */
  lemma ConfirmationIgnored(f: Form, other: string)
    ensures Body(f.(confirmPassword := other)) == Body(f)
  {
  }

  /** Submitting the untouched form sends the user's own name and email with
      an empty password. */
  lemma UntouchedFormBody(user: UserInfo)
    ensures Body(InitialForm(user)) == ProfileBody(user.name, user.email, "")
  {
  }
}

=== FILE: search_screen.dfy ===
/** The search screen: reading the filters from the URL with their defaults,
    building filter links (`getFilterUrl`), its reducer, the clear-filters
    button and the page buttons. Query strings are ordered key/value lists;
    percent-encoding and number-to-text conversion are left out. */
module SearchScreen {
  import opened Domain
  import opened Actions

  datatype Params = Params(category: Value, query: Value, price: Value, rating: Value, order: Value, page: Value)

  const All := Text("all")
  const Newest := Text("newest")

  /** The filters as the screen reads them from its query string. */
  function ParseParams(q: Query): (p: Params)
    ensures Get(q, "category").None? ==> p.category == All
    ensures Get(q, "query").None? ==> p.query == All
    ensures Get(q, "price").None? ==> p.price == All
    ensures Get(q, "rating").None? ==> p.rating == All
    ensures Get(q, "order").None? ==> p.order == Newest
    ensures Get(q, "page").None? ==> p.page == Num(1)
  {
    Params(
      GetOr(q, "category", All), GetOr(q, "query", All), GetOr(q, "price", All),
      GetOr(q, "rating", All), GetOr(q, "order", Newest), GetOr(q, "page", Num(1)))
  }

  predicate AllTruthy(p: Params) {
    && TruthyValue(p.category) && TruthyValue(p.query) && TruthyValue(p.price)
    && TruthyValue(p.rating) && TruthyValue(p.order) && TruthyValue(p.page)
  }

  /** Every filter the screen reads is truthy: a falsy value falls back to a
      truthy default. */
  lemma ParsedAreTruthy(q: Query)
    ensures AllTruthy(ParseParams(q))
  {
  }

  /** The fields a filter link overrides; absent fields keep their value. */
  datatype Filter = Filter(
    category: Option<Value>, query: Option<Value>, price: Option<Value>,
    rating: Option<Value>, order: Option<Value>, page: Option<Value>)

  const NoFilter := Filter(None, None, None, None, None, None)

  /** `filter.x || x`. */
  function Pick(o: Option<Value>, current: Value): (v: Value)
    ensures o.Some? && TruthyValue(o.value) ==> v == o.value
    ensures !(o.Some? && TruthyValue(o.value)) ==> v == current
  {
    if o.Some? && TruthyValue(o.value) then o.value else current
  }

  datatype Location = Location(pathname: string, search: Query)

  /** The link for the current filters with `f`'s truthy fields overridden. */
  function GetFilterUrl(cur: Params, f: Filter): (loc: Location)
    ensures loc.pathname == "/search"
    ensures |loc.search| == 6
    ensures loc.search[0] == ("category", Pick(f.category, cur.category))
    ensures loc.search[1] == ("query", Pick(f.query, cur.query))
    ensures loc.search[2] == ("price", Pick(f.price, cur.price))
    ensures loc.search[3] == ("rating", Pick(f.rating, cur.rating))
    ensures loc.search[4] == ("order", Pick(f.order, cur.order))
    ensures loc.search[5] == ("page", Pick(f.page, cur.page))
  {
    Location("/search", [
      ("category", Pick(f.category, cur.category)),
      ("query", Pick(f.query, cur.query)),
      ("price", Pick(f.price, cur.price)),
      ("rating", Pick(f.rating, cur.rating)),
      ("order", Pick(f.order, cur.order)),
      ("page", Pick(f.page, cur.page))
    ])
  }

  /** The filters `f` selects from `cur`, field by field. */
  function Apply(cur: Params, f: Filter): Params {
    Params(
      Pick(f.category, cur.category), Pick(f.query, cur.query), Pick(f.price, cur.price),
      Pick(f.rating, cur.rating), Pick(f.order, cur.order), Pick(f.page, cur.page))
  }

  /** Following a filter link shows the filters it selected: reading back the
      link's query string gives `Apply(cur, f)`. */
  lemma {:induction false} FilterUrlRoundTrip(cur: Params, f: Filter)
    requires AllTruthy(cur)
    ensures ParseParams(GetFilterUrl(cur, f).search) == Apply(cur, f)
  {
    var q := GetFilterUrl(cur, f).search;
    ReadBack(q, 0, All);
    ReadBack(q, 1, All);
    ReadBack(q, 2, All);
    ReadBack(q, 3, All);
    ReadBack(q, 4, Newest);
    ReadBack(q, 5, Num(1));
  }

  /** A truthy entry whose key no earlier entry has is read back as is. */
  lemma ReadBack(q: Query, k: nat, fallback: Value)
    requires k < |q| && TruthyValue(q[k].1)
    requires forall j :: 0 <= j < k ==> q[j].0 != q[k].0
    ensures GetOr(q, q[k].0, fallback) == q[k].1
  {
    GetFirst(q, k);
  }

  /** The empty filter reproduces the current filters. */
  lemma EmptyFilterIsIdentity(cur: Params)
    requires AllTruthy(cur)
    ensures Apply(cur, NoFilter) == cur
    ensures ParseParams(GetFilterUrl(cur, NoFilter).search) == cur
  {
    FilterUrlRoundTrip(cur, NoFilter);
  }

  datatype Field = CategoryField | QueryField | PriceField | RatingField | OrderField | PageField

  /** The filter that overrides one field. */
  function Only(field: Field, v: Value): Filter {
    match field
    case CategoryField => NoFilter.(category := Some(v))
    case QueryField => NoFilter.(query := Some(v))
    case PriceField => NoFilter.(price := Some(v))
    case RatingField => NoFilter.(rating := Some(v))
    case OrderField => NoFilter.(order := Some(v))
    case PageField => NoFilter.(page := Some(v))
  }

  function Position(field: Field): nat {
    match field
    case CategoryField => 0
    case QueryField => 1
    case PriceField => 2
    case RatingField => 3
    case OrderField => 4
    case PageField => 5
  }

  /** Overriding one field changes only that field's entry of the link; a
      falsy override changes nothing. */
  lemma OverrideChangesOnlyThatField(cur: Params, field: Field, v: Value)
    ensures forall i :: 0 <= i < 6 && i != Position(field) ==>
      GetFilterUrl(cur, Only(field, v)).search[i] == GetFilterUrl(cur, NoFilter).search[i]
    ensures TruthyValue(v) ==> GetFilterUrl(cur, Only(field, v)).search[Position(field)].1 == v
    ensures !TruthyValue(v) ==> GetFilterUrl(cur, Only(field, v)) == GetFilterUrl(cur, NoFilter)
  {
  }

  /** The query string of the search request, keys in the fetch's order. */
  function FetchQuery(cur: Params): (q: Query)
    ensures |q| == 6
    ensures forall i, j :: 0 <= i < j < |q| ==> q[i].0 != q[j].0
  {
    [("page", cur.page), ("query", cur.query), ("category", cur.category),
     ("price", cur.price), ("rating", cur.rating), ("order", cur.order)]
  }

  /** The search request asks for the same filters the empty filter link
      carries, only in another key order. */
  lemma {:induction false} FetchQueryMatchesFilterUrl(cur: Params, key: string)
    ensures Get(FetchQuery(cur), key) == Get(GetFilterUrl(cur, NoFilter).search, key)
  {
    if key in Keys {
      var k :| 0 <= k < 6 && Keys[k] == key;
      SameEntry(cur, k);
    } else {
      NoOtherKeys(FetchQuery(cur), key);
      NoOtherKeys(GetFilterUrl(cur, NoFilter).search, key);
    }
  }

  const Keys: seq<string> := ["category", "query", "price", "rating", "order", "page"]

  /** Each filter key has the same first value in both query strings. */
  lemma {:induction false} SameEntry(cur: Params, k: nat)
    requires k < 6
    ensures Get(FetchQuery(cur), Keys[k]) == Get(GetFilterUrl(cur, NoFilter).search, Keys[k])
  {
    var a, b := FetchQuery(cur), GetFilterUrl(cur, NoFilter).search;
    if k == 0 {
      GetFirst(a, 2); GetFirst(b, 0);
    } else if k == 1 {
      GetFirst(a, 1); GetFirst(b, 1);
    } else if k == 2 {
      GetFirst(a, 3); GetFirst(b, 2);
    } else if k == 3 {
      GetFirst(a, 4); GetFirst(b, 3);
    } else if k == 4 {
      GetFirst(a, 5); GetFirst(b, 4);
    } else {
      GetFirst(a, 0); GetFirst(b, 5);
    }
  }

  /** A query whose keys are the six filter keys has no entry for any other key. */
  lemma NoOtherKeys(q: Query, key: string)
    requires |q| == 6 && forall i :: 0 <= i < 6 ==> q[i].0 in Keys
    requires key !in Keys
    ensures Get(q, key).None?
  {
  }

  /** The clear-filters button shows when any of query, category, rating or
      price is not 'all'; the sort order and page do not count. */
  function ClearFiltersShown(p: Params): (shown: bool)
    ensures !shown <==> p.query == All && p.category == All && p.rating == All && p.price == All
  {
    p.query != All || p.category != All || p.rating != All || p.price != All
  }

  /** The clear button navigates to the bare '/search', which reads back as
      all defaults, where the button is hidden. */
  lemma ClearingResetsFilters()
    ensures ParseParams([]) == Params(All, All, All, All, Newest, Num(1))
    ensures !ClearFiltersShown(ParseParams([]))
  {
  }

  function PageButtons(pages: nat, p: Params): seq<(int, bool)> {
    PageLinks(pages, NumberOf(p.page))
  }

  datatype SearchResult = SearchResult(products: seq<Product>, page: Value, pages: nat, countProducts: int)

  /** Fields absent from the initial state are `None`. */
  datatype State = State(
    loading: bool,
    error: string,
    products: Option<seq<Product>>,
    page: Option<Value>,
    pages: Option<nat>,
    countProducts: Option<int>)

  const Initial := State(true, "", None, None, None, None)

  predicate Handles(a: Action<SearchResult>) {
    a.FetchRequest? || a.FetchSuccess? || a.FetchFail?
  }

  function Reduce(s: State, a: Action<SearchResult>): (r: State)
    ensures !Handles(a) ==> r == s
    ensures r.loading <==> a.FetchRequest? || (s.loading && !a.FetchSuccess? && !a.FetchFail?)
    // a success replaces the four result fields but leaves any earlier error in place
    ensures a.FetchSuccess? ==> r == State(false, s.error, Some(a.payload.products), Some(a.payload.page),
                                           Some(a.payload.pages), Some(a.payload.countProducts))
    ensures a.FetchFail? ==> r == s.(loading := false, error := a.error)
  {
    match a
    case FetchRequest => s.(loading := true)
    case FetchSuccess(d) =>
      s.(products := Some(d.products), page := Some(d.page), pages := Some(d.pages),
         countProducts := Some(d.countProducts), loading := false)
    case FetchFail(e) => s.(loading := false, error := e)
    case _ => s
  }

  /** As written: one run of the screen's fetch effect once the server has
      answered. It dispatches no FETCH_REQUEST, and its catch block sends
      `getError(error)`, built from the screen's previous error rather than
      from the exception it caught. `getError` is not part of this model, so
      it is the parameter `getError`. */
  function FetchAsWritten(s: State, response: Result<SearchResult>, getError: string -> string): (r: State)
    ensures response.Ok? ==> r == Reduce(s, FetchSuccess(response.value))
    ensures response.Failed? ==> r == s.(loading := false, error := getError(s.error))
    ensures !r.loading
  {
    match response
    case Ok(d) => Reduce(s, FetchSuccess(d))
    case Failed(_) => Reduce(s, FetchFail(getError(s.error)))
  }

  /** Corrected: a failed fetch stores the error it caught. */
  function Fetch(s: State, response: Result<SearchResult>): (r: State)
    ensures response.Ok? ==> r == Reduce(s, FetchSuccess(response.value))
    ensures response.Failed? ==> r == s.(loading := false, error := response.error)
    ensures !r.loading
  {
    match response
    case Ok(d) => Reduce(s, FetchSuccess(d))
    case Failed(e) => Reduce(s, FetchFail(e))
  }

  /** As written, what a failed search stores does not depend on the server's
      answer at all; the corrected fetch stores the server's error. Both agree
      on a success. */
  lemma FetchFailureIgnoresServerError(s: State, e1: string, e2: string, getError: string -> string, d: SearchResult)
    ensures FetchAsWritten(s, Failed(e1), getError) == FetchAsWritten(s, Failed(e2), getError)
    ensures Fetch(s, Failed(e1)).error == e1
    ensures e1 != e2 ==> Fetch(s, Failed(e1)) != Fetch(s, Failed(e2))
    ensures FetchAsWritten(s, Ok(d), getError) == Fetch(s, Ok(d))
  {
  }

  /** Successive fetch answers, with the corrected fetch. */
  function FetchAll(s: State, answers: seq<Result<SearchResult>>): State
    decreases |answers|
  {
    if |answers| == 0 then s else FetchAll(Fetch(s, answers[0]), answers[1..])
  }

  /** Successive fetch answers, as written. */
  function FetchAllAsWritten(s: State, answers: seq<Result<SearchResult>>, getError: string -> string): State
    decreases |answers|
  {
    if |answers| == 0 then s else FetchAllAsWritten(FetchAsWritten(s, answers[0], getError), answers[1..], getError)
  }

  /** Because no FETCH_REQUEST is dispatched, only the first load shows the
      spinner: once a fetch has settled, changing the filters refetches with
      the old results and no loading indicator on screen. This holds as
      written and corrected alike. */
  lemma {:induction false} SpinnerOnlyOnFirstLoad(s: State, later: seq<Result<SearchResult>>, getError: string -> string)
    requires !s.loading
    ensures !FetchAllAsWritten(s, later, getError).loading
    ensures !FetchAll(s, later).loading
    ensures PanelOf(Initial.loading, Initial.error) == LoadingPanel
    decreases |later|
  {
    if |later| > 0 {
      SpinnerOnlyOnFirstLoad(Fetch(s, later[0]), later[1..], getError);
      SpinnerOnlyOnFirstLoad(FetchAsWritten(s, later[0], getError), later[1..], getError);
    }
  }

  /** The last successful answer in `answers`, if any. */
  function LastSuccess(answers: seq<Result<SearchResult>>): Option<SearchResult>
    decreases |answers|
  {
    if |answers| == 0 then None
    else match LastSuccess(answers[1..])
      case Some(d) => Some(d)
      case None => if answers[0].Ok? then Some(answers[0].value) else None
  }

  /** After any run of answers the products held in state are those of the
      last successful answer; failures in between leave them in place. As
      written and corrected alike. Whether they are listed depends on the
      stored error (`ErrorOutlivesSuccesses`). */
  lemma {:induction false} ShowsLastSuccess(s: State, answers: seq<Result<SearchResult>>, getError: string -> string)
    ensures LastSuccess(answers).Some? ==> FetchAll(s, answers).products == Some(LastSuccess(answers).value.products)
    ensures LastSuccess(answers).None? ==> FetchAll(s, answers).products == s.products
    ensures FetchAllAsWritten(s, answers, getError).products == FetchAll(s, answers).products
    decreases |answers|
  {
    if |answers| > 0 {
      ShowsLastSuccess(Fetch(s, answers[0]), answers[1..], getError);
    }
    FetchedProductsAgree(s, s, answers, getError);
  }

  /** As-written and corrected runs from states holding the same products
      end holding the same products. */
  lemma {:induction false} FetchedProductsAgree(a: State, b: State, answers: seq<Result<SearchResult>>, getError: string -> string)
    requires a.products == b.products
    ensures FetchAllAsWritten(a, answers, getError).products == FetchAll(b, answers).products
    decreases |answers|
  {
    if |answers| > 0 {
      FetchedProductsAgree(FetchAsWritten(a, answers[0], getError), Fetch(b, answers[0]), answers[1..], getError);
    }
  }

  /** FETCH_SUCCESS never clears the error, and the results are listed only
      while no error is stored: once a failure has stored an error, later
      successes update the products held in state but the screen keeps the
      error panel. */
  lemma {:induction false} ErrorOutlivesSuccesses(s: State, answers: seq<Result<SearchResult>>, getError: string -> string)
    requires forall i :: 0 <= i < |answers| ==> answers[i].Ok?
    ensures FetchAll(s, answers).error == s.error
    ensures FetchAllAsWritten(s, answers, getError).error == s.error
    ensures |answers| > 0 && s.error != "" ==> PanelOf(FetchAll(s, answers).loading, FetchAll(s, answers).error) == ErrorPanel(s.error)
    ensures |answers| > 0 && s.error != "" ==>
      PanelOf(FetchAllAsWritten(s, answers, getError).loading, FetchAllAsWritten(s, answers, getError).error) == ErrorPanel(s.error)
    decreases |answers|
  {
    if |answers| > 0 {
      ErrorOutlivesSuccesses(Fetch(s, answers[0]), answers[1..], getError);
      ErrorOutlivesSuccesses(FetchAsWritten(s, answers[0], getError), answers[1..], getError);
      SpinnerOnlyOnFirstLoad(Fetch(s, answers[0]), answers[1..], getError);
      SpinnerOnlyOnFirstLoad(FetchAsWritten(s, answers[0], getError), answers[1..], getError);
    }
  }
}

=== FILE: shipping_address_screen.dfy ===
/** The shipping-address screen: the sign-in gate, the form's starting values
    and the submit handler that stores, persists and moves on to payment. */
module ShippingAddressScreen {
  import opened Domain

  const SigninForShipping := "/signin?redirect=/shipping"
  const ShippingAddressKey := "shippingAddress"

  function OnMount(st: ClientState): (m: Mount)
    ensures m.Stay? <==> st.userInfo.Some?
    ensures m.Redirect? ==> m.path == SigninForShipping
  {
    if st.userInfo.None? then Redirect(SigninForShipping) else Stay
  }

  /** Each field starts from the saved address, or '' when it is absent. */
  function InitialForm(saved: SavedAddress): (form: ShippingAddress)
    ensures form.fullName == OrElse(saved.fullName, "")
    ensures form.address == OrElse(saved.address, "")
    ensures form.city == OrElse(saved.city, "")
    ensures form.postalCode == OrElse(saved.postalCode, "")
    ensures form.country == OrElse(saved.country, "")
  {
    ShippingAddress(
      OrElse(saved.fullName, ""), OrElse(saved.address, ""), OrElse(saved.city, ""),
      OrElse(saved.postalCode, ""), OrElse(saved.country, ""))
  }

  /** All five inputs carry `required`, so the browser only fires the submit
      handler when none of them is empty. */
  predicate RequiredFilled(form: ShippingAddress) {
    && form.fullName != ""
    && form.address != ""
    && form.city != ""
    && form.postalCode != ""
    && form.country != ""
  }

  /** Submitting the form: nothing when a required field is empty, otherwise
      the address is stored, persisted and the payment screen opened. */
  function Submit(form: ShippingAddress): (effects: seq<Effect>)
    ensures !RequiredFilled(form) ==> effects == []
    ensures RequiredFilled(form) ==> |effects| == 3
    ensures RequiredFilled(form) ==> effects[0] == Dispatch(SaveShippingAddress(form))
    ensures RequiredFilled(form) ==> effects[1] == StorageSet(ShippingAddressKey, StoredAddress(form))
    ensures RequiredFilled(form) ==> effects[2] == Navigate("/payment")
  {
    if !RequiredFilled(form) then []
    else [
      Dispatch(SaveShippingAddress(form)),
      StorageSet(ShippingAddressKey, StoredAddress(form)),
      Navigate("/payment")
    ]
  }

  /** The stored and the persisted address are the same five-field value. */
  lemma StoredEqualsPersisted(form: ShippingAddress)
    requires RequiredFilled(form)
    ensures Submit(form)[0].action.address == Submit(form)[1].value.address
  {
  }

  /** Reopening the screen after a save shows exactly the address submitted. */
  lemma ReopenShowsSavedAddress(form: ShippingAddress)
    ensures InitialForm(Saved(form)) == form
  {
  }

  /** On the first visit every field is empty. */
  lemma FirstVisitIsBlank()
    ensures InitialForm(NoSavedAddress) == ShippingAddress("", "", "", "", "")
    ensures !RequiredFilled(InitialForm(NoSavedAddress))
  {
  }
}

=== FILE: signin_screen.dfy ===
/** The sign-in screen: where it sends the user afterwards, the redirect for an
    already signed-in user, and the outcome of submitting the form. */
module SigninScreen {
  import opened Domain

  const UserInfoKey := "userInfo"

  /** `redirectInUrl ? redirectInUrl : '/'` for the `redirect` query value. */
  function RedirectTarget(redirectParam: Option<string>): (r: string)
    ensures r != ""
    ensures Truthy(redirectParam) ==> r == redirectParam.value
    ensures !Truthy(redirectParam) ==> r == "/"
  {
    OrElse(redirectParam, "/")
  }

  /** A signed-in user is sent on to the redirect target at once. */
  function OnMount(st: ClientState, redirectParam: Option<string>): (m: Mount)
    ensures m.Stay? <==> st.userInfo.None?
    ensures m.Redirect? ==> m.path == RedirectTarget(redirectParam)
  {
    if st.userInfo.Some? then Redirect(RedirectTarget(redirectParam)) else Stay
  }

  /** Resolving an already resolved target changes nothing: the screen
      opened with `redirect=<target>` sends the user to that same target. */
  lemma {:induction false} TargetSurvivesRelink(redirectParam: Option<string>)
    ensures RedirectTarget(Some(RedirectTarget(redirectParam))) == RedirectTarget(redirectParam)
  {
  }

  const SignupPrefix := "/signup?redirect="

  /** The sign-up link keeps the same return target: the screen it opens
      reads back a `redirect` value that resolves to this screen's target. */
  function SignupLink(redirectParam: Option<string>): (link: string)
    ensures |link| > |SignupPrefix| && link[..|SignupPrefix|] == SignupPrefix
    ensures RedirectTarget(Some(link[|SignupPrefix|..])) == RedirectTarget(redirectParam)
  {
    var link := SignupPrefix + RedirectTarget(redirectParam);
    assert link[|SignupPrefix|..] == RedirectTarget(redirectParam);
    TargetSurvivesRelink(redirectParam);
    link
  }

  /** What a successful sign-in or sign-up does with the returned user:
      store it, persist it under 'userInfo', and navigate to `redirect || '/'`. */
  function SignedIn(user: UserInfo, redirect: string): (effects: seq<Effect>)
    ensures |effects| == 3
    ensures effects[0] == Dispatch(UserSignin(user)) && effects[1] == StorageSet(UserInfoKey, StoredUser(user))
    ensures redirect != "" ==> effects[2] == Navigate(redirect)
    ensures redirect == "" ==> effects[2] == Navigate("/")
  {
    [Dispatch(UserSignin(user)), StorageSet(UserInfoKey, StoredUser(user)), Navigate(if redirect != "" then redirect else "/")]
  }

  /** `submitHandler`, given the server's answer to the sign-in request. */
  function Submit(redirectParam: Option<string>, response: Result<UserInfo>): (effects: seq<Effect>)
    ensures response.Failed? ==> effects == [ToastError(response.error)] && OnlyNotifies(effects)
    ensures response.Ok? ==> |effects| == 3 && effects[0] == Dispatch(UserSignin(response.value))
    ensures response.Ok? ==> effects[1] == StorageSet(UserInfoKey, StoredUser(response.value))
    ensures response.Ok? ==> effects[|effects| - 1] == Navigate(RedirectTarget(redirectParam))
  {
    match response
    case Ok(user) => SignedIn(user, RedirectTarget(redirectParam))
    case Failed(e) => [ToastError(e)]
  }
}

=== FILE: signup_screen.dfy ===
/** The sign-up screen: password confirmation, redirect resolution and the
    outcome of submitting the form. */
module SignupScreen {
  import opened Domain
  import SigninScreen

  datatype Form = Form(name: string, email: string, password: string, confirmPassword: string)

  /** The request body: the confirmation is checked locally and never sent. */
  datatype SignupBody = SignupBody(name: string, email: string, password: string)

  const MismatchMessage := "Passwords do not match"

  /** Every input of the form is marked `required`, so the browser calls the
      submit handler only once all four are non-empty (the email field's
      format check is left out). */
  predicate RequiredFilled(f: Form) {
    f.name != "" && f.email != "" && f.password != "" && f.confirmPassword != ""
  }

  /** The body posted to the server, or `None` when no request is made: the
      browser withholds the submit while a field is empty, and the handler
      returns early when the passwords differ. */
  function RequestBody(f: Form): (body: Option<SignupBody>)
    ensures body.None? <==> !RequiredFilled(f) || f.password != f.confirmPassword
    ensures body.Some? ==> body.value.name == f.name && body.value.email == f.email && body.value.password == f.password
  {
    if !RequiredFilled(f) || f.password != f.confirmPassword then None else Some(SignupBody(f.name, f.email, f.password))
  }

  function OnMount(st: ClientState, redirectParam: Option<string>): (m: Mount)
    ensures m.Stay? <==> st.userInfo.None?
    ensures m.Redirect? ==> m.path == SigninScreen.RedirectTarget(redirectParam)
  {
    if st.userInfo.Some? then Redirect(SigninScreen.RedirectTarget(redirectParam)) else Stay
  }

  const SigninPrefix := "/signin?redirect="

  /** The log-in link keeps the same return target: the sign-in screen it
      opens reads back a `redirect` value that resolves to this screen's
      target. */
  function SigninLink(redirectParam: Option<string>): (link: string)
    ensures |link| > |SigninPrefix| && link[..|SigninPrefix|] == SigninPrefix
    ensures SigninScreen.RedirectTarget(Some(link[|SigninPrefix|..])) == SigninScreen.RedirectTarget(redirectParam)
  {
    var link := SigninPrefix + SigninScreen.RedirectTarget(redirectParam);
    assert link[|SigninPrefix|..] == SigninScreen.RedirectTarget(redirectParam);
    SigninScreen.TargetSurvivesRelink(redirectParam);
    link
  }

  /** Following the log-in link and then its sign-up link back lands on a
      sign-up screen with the original target, and a signed-in visitor is
      sent to that target from either screen. */
  lemma {:induction false} LinksRoundTrip(st: ClientState, redirectParam: Option<string>)
    ensures var there := Some(SigninLink(redirectParam)[|SigninPrefix|..]);
            var back := Some(SigninScreen.SignupLink(there)[|SigninScreen.SignupPrefix|..]);
            SigninScreen.RedirectTarget(back) == SigninScreen.RedirectTarget(redirectParam)
            && SigninScreen.OnMount(st, there) == OnMount(st, redirectParam)
            && OnMount(st, back) == OnMount(st, redirectParam)
  {
  }

  /** Submitting the form; `response` is used only when a request is sent. */
  function Submit(f: Form, redirectParam: Option<string>, response: Result<UserInfo>): (effects: seq<Effect>)
    ensures !RequiredFilled(f) ==> effects == []
    ensures RequiredFilled(f) && f.password != f.confirmPassword ==> effects == [ToastError(MismatchMessage)]
    ensures OnlyNotifies(effects) <==> RequestBody(f).None? || response.Failed?
    ensures Dispatches(effects) <==> RequestBody(f).Some? && response.Ok?
  {
    if !RequiredFilled(f) then []
    else if f.password != f.confirmPassword then [ToastError(MismatchMessage)]
    else match response
      case Ok(user) =>
        var effects := SigninScreen.SignedIn(user, SigninScreen.RedirectTarget(redirectParam));
        assert !IsNotification(effects[0]) && effects[0].Dispatch?;
        effects
      case Failed(e) => [ToastError(e)]
  }

  /** Once the form is filled in and the passwords agree, signing up ends
      exactly as signing in does for the same server answer. */
  lemma MatchingPasswordsActLikeSignin(f: Form, redirectParam: Option<string>, response: Result<UserInfo>)
    requires RequiredFilled(f) && f.password == f.confirmPassword
    ensures Submit(f, redirectParam, response) == SigninScreen.Submit(redirectParam, response)
  {
  }

  /** With mismatched passwords the server's answer is irrelevant. */
  lemma MismatchIgnoresResponse(f: Form, redirectParam: Option<string>, r1: Result<UserInfo>, r2: Result<UserInfo>)
    requires f.password != f.confirmPassword
    ensures Submit(f, redirectParam, r1) == Submit(f, redirectParam, r2)
    ensures !Dispatches(Submit(f, redirectParam, r1))
  {
  }
}
